=== FILE: README.md ===
# Biased byte generator and polynomial-input checks, modelled in Dafny

The repository holds two independent tools.

- **`assets/rndgen-c-bias/rand.c`** writes an endless stream of random bytes that carries a deliberate bias.
  - `randint(n)` is a rejection sampler over the C library's `rand()`. It returns a value in `[0, n)` with no modulo bias.
  - Each cycle of `main` fills a buffer of `BUFSIZE` bytes with `randint(256)`. At every index `i` where `BLOCKLEN` divides `i - BITPOS`, it clears bit `7 - BIASBIT % 8`. The bit is cleared always when `ZERO_CHANCE <= 1`, and otherwise when `randint(ZERO_CHANCE) == 0`.
- **`polyverif/main.py`** is a statistical tester. It counts how often Boolean terms of the input bits evaluate to one. The modelled part is the code that accepts and accumulates data:
  - the argument helpers `defset`, `get_multiplier` and `process_size`;
  - the polynomial validator `_fix_poly` and the loader `load_input_poly`;
  - the running Hamming-weight totals of `HWAnalysis`.

## Modules

| File | Module | What it models |
|---|---|---|
| `wrappers.dfy` | `Wrappers` | `Option` and `Result` |
| `c_arith.dfy` | `CArith` | C's truncating `/` and `%` |
| `sampler.dfy` | `Sampler` | `randint` as a function over a sequence of draws, plus a generator object `Rng` |
| `stream.dfy` | `BiasedStream` | one cycle of the output loop: the function `Fill` and the in-place method `FillCycle` on an `array<bv8>` |
| `size_args.dfy` | `SizeArgs` | `defset`, `get_multiplier`, `process_size` |
| `poly_input.dfy` | `PolyInput` | `_fix_poly` and `load_input_poly` |
| `hw_analysis.dfy` | `HwAnalysis` | `proces_chunk` and `process_ref` accumulation |

### How the C generator is represented

- `rand()` is a generator object. It holds a fixed tape of draws in `[0, RAND_MAX]` and a cursor; seeding fixes the tape. `randint` as written loops for as long as `rand()` keeps returning rejected values. The model reads a finite tape, so a call can also end with `Exhausted`.
- `Exhausted` is an artefact of the model. The other two faults are real:
  - `DivisionByZero`: `n == 0` or `BLOCKLEN == 0`;
  - `AssertionFailed`: `assert(end > 0)` fails.
- The `#define` constants are parameters. `Defaults` holds the shipped values. The buffer length is the array's length.

### How the Python code is represented

- Strings are Python 2 byte strings, so `lower()`, `isdigit()` and `strip()` act on ASCII only.
- The outcomes of `_fix_poly` map to Python as follows:
  - `Keep(p)`: returns the polynomial `p`;
  - `Halted(Ignored)`: returns `None`;
  - `Halted(Refused(e))`: raises.
- `json.loads` is a parameter of type `string -> Option<Json>`; `None` means that it raised.
- The weights the term evaluator computes are parameters.

### The rejection limit of `randint`

`randint` computes `end = (RAND_MAX / n) * n`, the largest multiple of `n` not above `RAND_MAX`. The result is unbiased (`Sampler.NoModuloBias`). Of the `RAND_MAX + 1` possible draw values, between 1 and `n` are rejected (`Sampler.LimitIsLargestMultiple`). This holds even when `n` divides `RAND_MAX + 1`, where no value would need rejecting.

## Model

| member | source | states |
|---|---|---|
| Sampler.RandIntOf | assets/rndgen-c-bias/rand.c:16-33 | `randint(n)` uses at most the draws available. A value it returns from draws in `[0, RAND_MAX]` lies in `[0, n)` |
| Sampler.Reject | assets/rndgen-c-bias/rand.c:28-31 | The rejection loop: every draw before the accepted one was `>= end`; the accepted one is `< end`; the result is it `% n`. If the draws run out, all of them were rejected |
| Sampler.Limit | assets/rndgen-c-bias/rand.c:21-23 | `end = (RAND_MAX / n) * n` with C's truncating division; its bounds are stated in `LimitIsLargestMultiple` |
| Sampler.Rng.constructor | assets/rndgen-c-bias/rand.c:44-48 | Seeding fixes the whole sequence of draws; nothing has been drawn yet |
| Sampler.Rng.Rand | assets/rndgen-c-bias/rand.c:29 | `rand()` returns the next draw and advances by one |
| Sampler.Rng.RandInt | assets/rndgen-c-bias/rand.c:16-33 | Returns exactly `RandIntOf` of the remaining draws and consumes exactly the draws it used |
| Sampler.Rng.RejectLoop | assets/rndgen-c-bias/rand.c:28-31 | The loop returns exactly `Reject` of the remaining draws and consumes exactly the draws that used |
| Sampler.RejectStep | assets/rndgen-c-bias/rand.c:29 | A rejected draw only shifts the rest of the loop by one draw |
| Sampler.FullRangeIsRawDraw | assets/rndgen-c-bias/rand.c:17-18 | With `n - 1 == RAND_MAX` one raw draw is returned unchanged and exactly one draw is consumed |
| Sampler.AssertionHoldsIff | assets/rndgen-c-bias/rand.c:21-22 | `RAND_MAX / n > 0` holds exactly when `1 <= n <= RAND_MAX` |
| Sampler.LimitIsLargestMultiple | assets/rndgen-c-bias/rand.c:21-23 | `end` is a positive multiple of `n` with `end <= RAND_MAX < end + n`. The number of rejected values is between 1 and `n` and never exceeds the number of accepted values |
| Sampler.RandIntFaults | assets/rndgen-c-bias/rand.c:17-31 | Each fault happens exactly when the code would produce it (iff in each case): division by zero iff `n == 0`, assertion failure iff `n < 0` or `n > RAND_MAX + 1`, running out iff every remaining draw is rejected |
| Sampler.AcceptedDraw | assets/rndgen-c-bias/rand.c:28-31 | A returned value comes from the accepted draw `r` in `[0, end)` as `r % n`. Every earlier draw was in `[end, RAND_MAX]` |
| Sampler.NoModuloBias | assets/rndgen-c-bias/rand.c:20-25 | Every `k` in `[0, n)` is the image of exactly `end / n` accepted draws |
| Sampler.CountResidues | assets/rndgen-c-bias/rand.c:23-31 | In `[0, q*n)` exactly `q` values have remainder `k` modulo `n` |
| CArith.CDiv | assets/rndgen-c-bias/rand.c:21 | C's quotient has the sign that truncation toward zero gives |
| CArith.CRem | assets/rndgen-c-bias/rand.c:57 | C's remainder is smaller than the divisor in magnitude and has the dividend's sign |
| CArith.CRemZeroIffDivides | assets/rndgen-c-bias/rand.c:57 | C's remainder is zero exactly when the Euclidean one is, so the check index test is divisibility |
| BiasedStream.CheckPosIffDivides | assets/rndgen-c-bias/rand.c:57 | `(i - BITPOS) % BLOCKLEN == 0` iff `BLOCKLEN` divides `i - BITPOS` |
| BiasedStream.BitPos | assets/rndgen-c-bias/rand.c:41 | `BITPOS = BIASBIT / 8` with C's truncating division |
| BiasedStream.IsCheckPos | assets/rndgen-c-bias/rand.c:57 | The test `(i - BITPOS) % BLOCKLEN == 0` with C's remainder; `CheckPosIffDivides` gives its meaning |
| BiasedStream.BiasBitIndex | assets/rndgen-c-bias/rand.c:60 | The shift `7 - (BIASBIT % 8)` lies in `[0, 14]`, and in `[0, 7]` when `BIASBIT` is not negative |
| BiasedStream.BiasMask | assets/rndgen-c-bias/rand.c:60 | The bit `~(1 << k)` clears in a byte: `1 << k` for `k` in `[0, 7]`, no bit for a larger shift, whose bit the store to `char` drops |
| BiasedStream.BitMaskIsShift | assets/rndgen-c-bias/rand.c:60 | The mask is `1 << (7 - BIASBIT % 8)` |
| BiasedStream.ByteOf | assets/rndgen-c-bias/rand.c:54 | A value in `[0, 256)` is stored as the byte of that value |
| BiasedStream.Written | assets/rndgen-c-bias/rand.c:59-60 | `&= ~mask` clears the masked bit and leaves every other bit as it was; without a reset the byte is unchanged |
| BiasedStream.StepAt | assets/rndgen-c-bias/rand.c:54-61 | One pass of the inner loop body uses at most the draws available |
| BiasedStream.ResetOf | assets/rndgen-c-bias/rand.c:57-58 | Deciding `reset_f` uses at most the draws available |
| BiasedStream.StepParts | assets/rndgen-c-bias/rand.c:54-61 | A written index holds `randint(256)`'s value, the reset decided from the following draws, and that value with only the bias bit possibly cleared |
| BiasedStream.ResetIff | assets/rndgen-c-bias/rand.c:57-59 | `reset_f` is set iff the index is a check index and either `ZERO_CHANCE <= 1` or `randint(ZERO_CHANCE) == 0`. A trial draw happens only at a check index with `ZERO_CHANCE > 1` |
| BiasedStream.BodyOf | assets/rndgen-c-bias/rand.c:53-61 | The loop body as a value: each pass is `StepAt` |
| BiasedStream.Fill | assets/rndgen-c-bias/rand.c:53-63 | A cycle uses at most the draws available and never writes past `BUFSIZE`. It reaches every index unless a fault ends it |
| BiasedStream.Bytes | assets/rndgen-c-bias/rand.c:53-63 | The buffer contents of a cycle are the final bytes of its entries, in order |
| BiasedStream.FillHalted | assets/rndgen-c-bias/rand.c:53-63 | After a fault the cycle is over and does not change |
| BiasedStream.FillStops | assets/rndgen-c-bias/rand.c:53-63 | After a fault at any point the cycle stays as it was |
| BiasedStream.FillGrows | assets/rndgen-c-bias/rand.c:53-54 | Each index extends the cycle by one pass of the body, at the draws left by the earlier indices |
| BiasedStream.FillPrefix | assets/rndgen-c-bias/rand.c:53-54 | The entries of the first `k` indices are a prefix of the entries of any later point of the cycle |
| BiasedStream.ReachedIndex | assets/rndgen-c-bias/rand.c:53-63 | A cycle with an entry at `i` ran its first `i` passes without a fault, and pass `i` wrote an entry |
| BiasedStream.FillEntry | assets/rndgen-c-bias/rand.c:53-54 | Entry `i` is the body run at index `i` on the draws that indices `0..i-1` left |
| BiasedStream.CycleEntry | assets/rndgen-c-bias/rand.c:53-63 | Each index of a cycle holds `randint(256)` drawn at its position. Its bit is cleared iff `reset_f` holds there, and only that bit changes |
| BiasedStream.DefaultsClearTopBit | assets/rndgen-c-bias/rand.c:37-60 | With the shipped constants, exactly the bytes with `i % 16 == 0` are cleared, to `sampled & 0x7F`. Every other byte is exactly as sampled |
| BiasedStream.FillFaultFrom | assets/rndgen-c-bias/rand.c:53-63 | A cycle ends only with a fault a single pass can raise |
| BiasedStream.StepNeverAborts | assets/rndgen-c-bias/rand.c:54-58 | With `RAND_MAX >= 255`, `BLOCKLEN != 0` and `ZERO_CHANCE <= RAND_MAX + 1`, no pass divides by zero or fails the assertion |
| BiasedStream.NeverAborts | assets/rndgen-c-bias/rand.c:53-63 | Under the same conditions no whole cycle divides by zero or fails the assertion |
| BiasedStream.WriteIndex | assets/rndgen-c-bias/rand.c:54-61 | The inner body changes only `buff[i]`, to the byte `StepAt` specifies, and consumes exactly its draws |
| BiasedStream.ResetFlag | assets/rndgen-c-bias/rand.c:57-58 | Computes `reset_f` as `ResetOf` specifies, consuming exactly its draws |
| BiasedStream.FillCycle | assets/rndgen-c-bias/rand.c:53-63 | The in-place loop leaves `buff` equal to the cycle's bytes followed by the untouched old bytes, consumes the cycle's draws and returns its fault |
| BiasedStream.BytesAfterStep | assets/rndgen-c-bias/rand.c:53-54 | Writing index `i` extends the written prefix of the buffer by that index's byte |
| SizeArgs.Defset | polyverif/main.py:361-362 | Returns the value when it is given, the default otherwise |
| SizeArgs.Lower | polyverif/main.py:413 | ASCII lower-casing changes only `A`..`Z` |
| SizeArgs.IsDigits | polyverif/main.py:443 | `str.isdigit()` on a byte string: non-empty and every character one of the ASCII digits `0`..`9` |
| SizeArgs.UnitRank | polyverif/main.py:413-421 | The power a unit letter stands for, from 1 (`k`) to 4 (`t`), in either case; none for any other character |
| SizeArgs.GetMultiplier | polyverif/main.py:401-423 | The multiplier, when there is one, is at least 1. It is 1 exactly when there is no unit (None or empty) |
| SizeArgs.MultiplierIsPower | polyverif/main.py:410-423 | Letter `k`/`m`/`g`/`t` gives `1000^rank`, or `1024^rank` when binary. Any other first character is an error naming it. Only the first character is read |
| SizeArgs.UnitLetterHasRank | polyverif/main.py:413-423 | The pattern's unit letters `[kKmMgGtT]` are exactly the characters `get_multiplier` knows |
| SizeArgs.MultiplierIgnoresCase | polyverif/main.py:413 | Upper- and lower-case unit letters give the same multiplier |
| SizeArgs.HexPrefix | polyverif/main.py:446 | The longest run of hex digits at the start |
| SizeArgs.Accepts | polyverif/main.py:446 | The size pattern, stated directly: mantissa, optional unit letter with optional `i`/`I` (binary exactly when present), and an optional final newline for `$` |
| SizeArgs.MatchSize | polyverif/main.py:446 | `re.match` of the size pattern: a match has a mantissa and, with the unit, makes up the string without its final newline. `MatchSizeSound` and `MatchSizeComplete` tie it to `Accepts` |
| SizeArgs.DecimalValue | polyverif/main.py:443-444 | `int()` of a string of decimal digits |
| SizeArgs.MatchMantissaExact | polyverif/main.py:446 | The mantissa group matches at the longest hex run whenever it matches at all, so backtracking never helps |
| SizeArgs.MatchSizeSound | polyverif/main.py:446 | Every match computed is one the size pattern accepts |
| SizeArgs.MatchSizeComplete | polyverif/main.py:446 | Every way the pattern accepts a string yields the captures computed, so the groups are unique |
| SizeArgs.ProcessSize | polyverif/main.py:425-453 | An exact count from a string is never negative |
| SizeArgs.SizeOfMatch | polyverif/main.py:450-453 | The scaled mantissa is never negative |
| SizeArgs.MatchedUnitKnown | polyverif/main.py:450-452 | The unit of any match has a known multiplier |
| SizeArgs.NeverUnknownMultiplier | polyverif/main.py:446-453 | `process_size` never raises the unknown-multiplier error |
| SizeArgs.ProcessSizePlain | polyverif/main.py:431-444 | None and `""` give None. An integer is returned unchanged. Any other type is refused. An all-digit string gives its decimal value |
| SizeArgs.RefusedIffNoMatch | polyverif/main.py:446-448 | A non-digit string is refused as an unknown size exactly when the pattern does not accept it |
| SizeArgs.DigitsWithUnit | polyverif/main.py:446 | Digits followed by a unit fail `isdigit()`, and the pattern captures the digits as the mantissa and the rest as the unit, binary exactly when the letter is followed by `i` or `I` |
| SizeArgs.ProcessSizeWithUnit | polyverif/main.py:446-453 | Digits plus a unit letter, plus the marker `i` or `I` for binary, give `digits * 1000^rank` or `digits * 1024^rank` while that product is at most 2^53; above that the result is the unevaluated `FloatCount` |
| PolyInput.PyDiv | polyverif/main.py:482 | Python's `//` rounds toward minus infinity: `b * q <= a < b * q + b` for a positive `b`, and `b * q + b < a <= b * q` for a negative one |
| PolyInput.PyMod | polyverif/main.py:482 | Python's `%`: the remainder has the divisor's sign and satisfies `a == b * (a // b) + a % b` |
| PolyInput.IsInt | polyverif/main.py:476 | `isinstance(var, (int, long))`: a JSON integer, or a JSON `true`/`false`, since a Python `bool` is an `int` (valued 1 and 0 by `IntOf`) |
| PolyInput.FixVar | polyverif/main.py:478-485 | The variable check, case by case (each case an iff): non-integer, ignored, out of range, division by zero, kept. A kept variable is unchanged or replaced by its remainder. Unless reduced modulo a non-positive block length, it is below the block length |
| PolyInput.Sweep | polyverif/main.py:474-485 | A left-to-right pass that keeps everything preserves the length |
| PolyInput.FixTerm | polyverif/main.py:473-485 | A term that is not a list raises. A kept term is a list of the same length |
| PolyInput.SweepAllKept | polyverif/main.py:474-485 | A pass keeps everything iff every element is kept, and it then holds each element's result |
| PolyInput.SweepFirstHalt | polyverif/main.py:474-485 | The first element that halts decides the outcome |
| PolyInput.SweepPrefixHalted | polyverif/main.py:474-485 | Nothing after a halt is looked at |
| PolyInput.SweepHaltOf | polyverif/main.py:474-485 | A halt comes from some element |
| PolyInput.SweepFixed | polyverif/main.py:474-485 | A pass over elements that are kept unchanged returns them unchanged |
| PolyInput.TermsOf | polyverif/main.py:470-472 | The terms list is non-empty and its first element is a list |
| PolyInput.FixPolyOf | polyverif/main.py:456-487 | `_fix_poly`: a returned polynomial comes from a non-empty list and has one term per term of the input; the lemmas below state the rest |
| PolyInput.FixPolyKeepIff | polyverif/main.py:456-487 | A polynomial is returned iff it is well formed and either all variables are below the block length or out-of-range ones are reduced (`poly_mod`, no `poly_ignore`, non-zero block length) |
| PolyInput.FixPolyKept | polyverif/main.py:472-487 | A returned polynomial has the input's terms and term lengths. Each variable is what the variable check made of the input's |
| PolyInput.FixPolyInRange | polyverif/main.py:478-487 | Unless the block length is negative under `poly_mod`, a returned polynomial is well formed with every variable below the block length |
| PolyInput.FixVarIdempotent | polyverif/main.py:478-485 | A kept variable passes the check again unchanged, including a remainder modulo a negative block length |
| PolyInput.FixPolyIdempotent | polyverif/main.py:456-487 | Fixing a returned polynomial again returns it unchanged, for every configuration |
| PolyInput.FlatListWrapped | polyverif/main.py:470-472 | A flat list is checked as the one-term polynomial `[poly]` |
| PolyInput.FixPolyHaltOf | polyverif/main.py:472-487 | A halt comes from a non-list term or from one variable's check |
| PolyInput.FixPolyHalts | polyverif/main.py:462-487 | Each error and the `None` result arise only in their stated situation. Not-a-list and empty are iff |
| PolyInput.IgnoredWhenOutOfRange | polyverif/main.py:478-480 | With `poly_ignore`, a well-formed polynomial with any out-of-range variable gives None |
| PolyInput.App.constructor | polyverif/main.py:354-359 | Starts with no input polynomials |
| PolyInput.App.FixPoly | polyverif/main.py:456-487 | The in-place loop returns exactly `FixPolyOf` |
| PolyInput.App.FixTermInPlace | polyverif/main.py:475-485 | The inner loop over one term returns exactly `FixTerm` |
| PolyInput.App.ParseAndFix | polyverif/main.py:495 | Parsing then fixing gives `ParsePoly` |
| PolyInput.IsSpace | polyverif/main.py:501 | The whitespace `strip()` removes from a Python 2 byte string: space, tab, newline, carriage return, vertical tab and form feed |
| PolyInput.LeadingSpaces | polyverif/main.py:501 | The number of leading whitespace characters: all of them are whitespace and the next is not |
| PolyInput.StripLeft | polyverif/main.py:501 | Removes exactly the leading whitespace |
| PolyInput.StripRight | polyverif/main.py:501 | Removes exactly the trailing whitespace |
| PolyInput.Strip | polyverif/main.py:501 | The stripped line is the middle of the line, after its leading whitespace, with only whitespace on either side. It has no whitespace at either end and is empty iff the line is all whitespace |
| PolyInput.KeepLine | polyverif/main.py:502-507 | A stripped line is read unless it is empty or starts with `#` or `//` |
| PolyInput.ParsePoly | polyverif/main.py:495 | Unparsable text is refused; otherwise the result is `_fix_poly` of the parsed value |
| PolyInput.LoadArg | polyverif/main.py:494-496 | An argument appends one entry, None included, unless it raises |
| PolyInput.LoadArgs | polyverif/main.py:494-496 | Without an error every argument appended exactly one entry |
| PolyInput.LoadLine | polyverif/main.py:501-512 | A skipped line changes nothing. A read line appends its polynomial when it is kept, nothing when it is ignored (None), and stops loading with its error exactly when it raises |
| PolyInput.LoadLines | polyverif/main.py:498-512 | No entry appended from a file is None. At most one entry is appended per line |
| PolyInput.LineRefused | polyverif/main.py:501-509 | A file line that is read and whose polynomial raises |
| PolyInput.LinePolys | polyverif/main.py:498-512 | The reference for file lines: in order, each read line's kept polynomial, ignoring errors |
| PolyInput.LinePoly | polyverif/main.py:501-512 | What one file line contributes: at most one polynomial, never None |
| PolyInput.LoadLinesClean | polyverif/main.py:498-512 | When no line raises, loading adds exactly `LinePolys`: in order, the polynomial of each read line whose check keeps it |
| PolyInput.LoadLinesRefused | polyverif/main.py:498-512 | The first line that raises ends loading with its error, after the polynomials of the lines before it |
| PolyInput.LoadLinesFailsIff | polyverif/main.py:498-512 | Loading the lines fails iff some read line's polynomial raises |
| PolyInput.LoadLinesFailsAt | polyverif/main.py:498-512 | A line that raises makes loading fail |
| PolyInput.LoadLinesStep | polyverif/main.py:498-512 | Loading fails iff loading the earlier lines fails or the last line raises |
| PolyInput.LoadOf | polyverif/main.py:489-512 | At most one entry per argument and line |
| PolyInput.AsOption | polyverif/main.py:495-496 | An ignored polynomial becomes None |
| PolyInput.LoadArgsLast | polyverif/main.py:494-496 | Without an error, the last argument's result, None when ignored, is appended after the others' |
| PolyInput.LoadArgsEach | polyverif/main.py:494-496 | `LoadArgsEntry` for every `k` at once: without an error, the entries are the arguments' results in order |
| PolyInput.LoadArgsEntry | polyverif/main.py:494-496 | Without an error, entry `k` is the result of argument `k`, None when it was ignored |
| PolyInput.LoadArgsStops | polyverif/main.py:494-496 | An error ends loading: later arguments are not read |
| PolyInput.LoadLinesStops | polyverif/main.py:498-512 | An error ends loading: later lines are not read |
| PolyInput.KeptLines | polyverif/main.py:501-507 | Every kept line is non-blank and not a comment |
| PolyInput.SkippedLinesIrrelevant | polyverif/main.py:501-507 | Blank and comment lines make no difference to what is loaded |
| PolyInput.App.LoadInputPoly | polyverif/main.py:489-512 | Appends exactly what `LoadOf` specifies and returns its error. Entries appended before an error stay |
| PolyInput.App.LoadPolyArgs | polyverif/main.py:494-496 | The argument loop appends exactly `LoadArgs` |
| PolyInput.App.LoadPolyLines | polyverif/main.py:498-512 | The file-line loop appends exactly `LoadLines` |
| PolyInput.App.LoadPolyLine | polyverif/main.py:501-512 | One line appends exactly what `LoadLine` adds and returns its error |
| PolyInput.LoadOfThen | polyverif/main.py:489-512 | The two loops in sequence append what loading as a whole appends |
| HwAnalysis.AddRow | polyverif/main.py:125-126 | Adding a row keeps its length |
| HwAnalysis.AddDegrees | polyverif/main.py:124-126 | A chunk keeps the shape of the totals |
| HwAnalysis.AddDegreesEntries | polyverif/main.py:124-126 | A chunk adds its weight to exactly the entries of degrees 1..deg. Row 0 and the rows above `deg` are unchanged |
| HwAnalysis.ChunkOrderIrrelevant | polyverif/main.py:124-126 | Processing two chunks in either order gives the same totals |
| HwAnalysis.AddAll | polyverif/main.py:124-126 | Any number of chunks keep the shape of the totals |
| HwAnalysis.ColumnSum | polyverif/main.py:124-126 | The weight of one term summed over a sequence of chunks, the reference for `TotalsAreColumnSums` |
| HwAnalysis.TotalsAreColumnSums | polyverif/main.py:124-126 | After any chunks, each degree-1..deg entry is its start value plus that term's weight summed over all chunks. Row 0 is unchanged |
| HwAnalysis.Accumulate | polyverif/main.py:124-126 | The nested loops compute exactly `AddDegrees` |
| HwAnalysis.AddCounts | polyverif/main.py:133-136 | Each input polynomial's total gains that chunk's weight for it |
| HwAnalysis.Zeros | polyverif/main.py:87-88 | A zero table with the given row lengths |
| HwAnalysis.HWAnalysis.constructor | polyverif/main.py:49-91 | Totals start at zero with the given row sizes, and `total_n` starts at 0 |
| HwAnalysis.HWAnalysis.ProcessRef | polyverif/main.py:146-167 | Returns None without a reference and an error iff the lengths differ. When all degrees are computed, returns the reference weights, which are added into the reference totals. Nothing else changes |
| HwAnalysis.HWAnalysis.ProcessChunk | polyverif/main.py:105-141 | The totals gain `hws2` when all degrees are computed. Each input polynomial total gains its weight and `total_n` gains the evaluation count. The result is an error iff the reference length differs, the reference weights iff all degrees are computed, and None otherwise. The reference totals change as in `ProcessRef`, and a reference error keeps the earlier updates |

## Left out

- Seeding from `argv` with `srand`/`atoi`: the generator's tape is the seed's whole draw sequence.
- `write`/`fflush` to standard output, and the endless `for(;;)`: one cycle is modelled. These are I/O and non-termination.
- The statistical quality of the C library's `rand()`: it is a foreign generator, taken as an abstract sequence of draws in `[0, RAND_MAX]`.
- Sampler.RandIntOf: the overflow of `n - 1` for `n == INT_MIN` is not modelled; integers are unbounded.
- The `char` buffer is modelled as unsigned bytes. The bits written are the same whether `char` is signed or not.
- The buffer length `BUFSIZE` (1024 as shipped) is not a constant of the model: `FillCycle` works on an array of any length.
- SizeArgs.ProcessSize: the branch `int(float(mantissa) * multiplier)` is not evaluated, because it is floating point. `Ok(FloatCount(mantissa, multiplier))` stands for either the value it computes or the `ValueError` that `float()` raises. It is returned for three kinds of mantissa: one with hex letters or a fraction, one whose separator is any character, and one whose exact product exceeds 2^53. The pattern's `.` is unescaped, so it also matches `+` and `-`. A mantissa with a hex letter or a separator other than `.` converts only in the exponent forms `<digits>[eE]<digits>` and `<digits>[eE][+-]<digits>` (for example `1e+5k` gives 100000000 and `1e-5k` gives 0). `float()` raises for every other such mantissa (for example `ffk` or `1x5k`). The model does not separate these raises from the values.
- Unicode strings: `lower()`/`isdigit()` are modelled for ASCII byte strings only.
- `json.loads` is a parameter: its parsing is a library call.
- Opening and reading the polynomial files: `LoadInputPoly` receives every file's lines in order. Errors from opening a file are I/O and are not modelled.
- The `print` and `logger` calls are not modelled; they are logging.
- The aliasing of the caller's JSON object by `_fix_poly`'s in-place rewrite is not modelled. The rewrite updates local sequences, and the parsed value is never shared.
- The term evaluator (`TermEval.load`, `eval_all_terms`, `eval_poly`, `hw`, `cur_evals`) and `common.comb` are not part of this model. Their results are parameters.
- HwAnalysis.HWAnalysis.ProcessChunk: the chunk's weight tables are required to match the totals' shape (`Conforms`). An `IndexError` from mismatched tables is not modelled, since the evaluator builds them with the same sizes.
- The statistics (`analyse`, `analyse_input`, z-scores, `comb_xor`, `comb_and`, `independence_test`), plotting and argument parsing are not modelled: they are floating point and UI.

=== FILE: c_arith.dfy ===
/**
 * C's integer division and remainder. Dafny's `/` and `%` are Euclidean;
 * C99 truncates the quotient toward zero and gives a non-zero remainder
 * the sign of the dividend.
 */
module CArith {

  /** Euclidean division of a non-negative `x` by a positive `y`. */
  lemma DivOfNatural(x: int, y: int)
    requires x >= 0 && y > 0
    ensures x == y * (x / y) + x % y
    ensures 0 <= y * (x / y) <= x
  {
    assert x == y * (x / y) + x % y;
  }

  /** Negation moves freely through a product. */
  lemma NegMul(x: int, y: int)
    ensures x * -y == -(x * y) == (-x) * y
  {
  }

  /** `a / b` in C: the quotient truncated toward zero. */
  function CDiv(a: int, b: int): (q: int)
    requires b != 0
    ensures q > 0 ==> (a < 0) == (b < 0)
    ensures q < 0 ==> (a < 0) != (b < 0)
    // Truncation toward zero: `b * q` lies between 0 and `a`.
    ensures 0 <= b * q <= a || a <= b * q <= 0
  {
    if a >= 0 && b > 0 then
      DivOfNatural(a, b); a / b
    else if a >= 0 then
      var d := a / -b; DivOfNatural(a, -b); NegMul(b, d); -d
    else if b > 0 then
      var d := (-a) / b; DivOfNatural(-a, b); NegMul(b, d); -d
    else
      var d := (-a) / (-b); DivOfNatural(-a, -b); NegMul(b, d); NegMul(-b, d); d
  }

  /** `a % b` in C: the remainder of the magnitudes, with the sign of `a`. */
  function CRem(a: int, b: int): (r: int)
    requires b != 0
    ensures -b < r < b || b < r < -b
    ensures r == 0 || (r < 0) == (a < 0)
    // The remainder completes C's truncated quotient.
    ensures a == b * CDiv(a, b) + r
  {
    var m := if b > 0 then b else -b;
    if a >= 0 then
      var d := a / m; DivOfNatural(a, m); NegMul(b, d); a % m
    else
      var d := (-a) / m; DivOfNatural(-a, m); NegMul(b, d); NegMul(-b, d); -((-a) % m)
  }

  /** A multiple of a positive `n` is 0 or at least `n` away from 0. */
  lemma MulSign(n: int, d: int)
    requires n > 0
    ensures d >= 1 ==> n * d >= n
    ensures d == 0 ==> n * d == 0
    ensures d <= -1 ==> n * d <= -n
  {
    if d >= 1 {
      assert n * d == n * (d - 1) + n;
      assert n * (d - 1) >= 0;
    } else if d <= -1 {
      assert n * d == n * (d + 1) - n;
      assert n * (-(d + 1)) >= 0;
    }
  }

  /** Euclidean division is unique: `q * m + j` with `0 <= j < m` has quotient `q` and remainder `j`. */
  lemma EuclidUnique(a: int, m: int, q: int, j: int)
    requires m > 0 && 0 <= j < m && a == q * m + j
    ensures a % m == j && a / m == q
  {
    assert a == m * (a / m) + a % m;
    assert m * (a / m - q) == j - a % m;
    MulSign(m, a / m - q);
  }

  /** A multiple of a non-zero `b` smaller in magnitude than `b` is zero. */
  lemma SmallMultiple(b: int, d: int, r: int)
    requires b != 0 && b * d == r && (-b < r < b || b < r < -b)
    ensures r == 0
  {
    if b > 0 {
      MulSign(b, d);
    } else {
      NegMul(b, d);
      MulSign(-b, -d);
    }
  }

  /**
   * Two ways of writing `a` as a multiple of `b` plus a remainder smaller
   * than `b` in magnitude agree on whether the remainder is zero.
   */
  lemma RemaindersAgreeOnZero(a: int, b: int, q: int, r: int, e: int, j: int)
    requires b != 0 && a == b * q + r && a == b * e + j
    requires -b < r < b || b < r < -b
    requires 0 <= j < b || 0 <= j < -b
    ensures r == 0 <==> j == 0
  {
    assert b * (e - q) == b * e - b * q;
    if r == 0 {
      SmallMultiple(b, e - q, -j);
    } else if j == 0 {
      SmallMultiple(b, e - q, r);
    }
  }

  /**
   * A zero test reads the same under both conventions: C's `a % b == 0`
   * holds exactly when `b` divides `a`, which is Dafny's `a % b == 0`.
   */
  lemma CRemZeroIffDivides(a: int, b: int)
    requires b != 0
    ensures CRem(a, b) == 0 <==> a % b == 0
  {
    RemaindersAgreeOnZero(a, b, CDiv(a, b), CRem(a, b), a / b, a % b);
  }
}

=== FILE: hw_analysis.dfy ===
/**
 * The running totals of the polynomial verifier's `HWAnalysis`: for every
 * degree `d` in 1..deg and every term `i` of that degree, the Hamming
 * weights of the term's evaluations are summed over all chunks of input
 * (`total_hws`) and of the reference stream (`ref_total_hws`).
 *
 * The weights of one chunk come from the term evaluator, which is not part
 * of this model; they are parameters here.
 */
module HwAnalysis {
  import opened Wrappers

  /** A table of totals: one row per degree 0..deg, one entry per term. */
  type Table = seq<seq<int>>

  /** `row` with `add` added entry by entry. */
  function AddRow(row: seq<int>, add: seq<int>): (r: seq<int>)
    requires |add| >= |row|
    ensures |r| == |row|
  {
    seq(|row|, i requires 0 <= i < |row| => row[i] + add[i])
  }

  /**
   * What the accumulation loops index without going out of bounds: rows
   * 1..deg exist in both tables and each row of `hws` is at least as long
   * as the total it is added into.
   */
  predicate Conforms(totals: Table, hws: Table, deg: nat) {
    deg < |totals| && deg < |hws| && forall d :: 1 <= d <= deg ==> |hws[d]| >= |totals[d]|
  }

  /** The totals after one chunk: rows 1..deg gain the chunk's weights, every other row is kept. */
  function AddDegrees(totals: Table, hws: Table, deg: nat): (r: Table)
    requires Conforms(totals, hws, deg)
    ensures |r| == |totals| && forall d :: 0 <= d < |r| ==> |r[d]| == |totals[d]|
  {
    seq(|totals|, d requires 0 <= d < |totals| => if 1 <= d <= deg then AddRow(totals[d], hws[d]) else totals[d])
  }

  /** The same shape: as many rows, each as long. */
  predicate SameShape(a: Table, b: Table) {
    |a| == |b| && forall d :: 0 <= d < |a| ==> |a[d]| == |b[d]|
  }

  /**
   * One chunk adds its weight to exactly the entries of degrees 1..deg;
   * row 0 and the rows above `deg` are left as they were.
   */
  lemma AddDegreesEntries(totals: Table, hws: Table, deg: nat)
    requires Conforms(totals, hws, deg)
    ensures var r := AddDegrees(totals, hws, deg);
      && SameShape(r, totals)
      && r[0] == totals[0]
      && (forall d :: deg < d < |totals| ==> r[d] == totals[d])
      && (forall d, i :: 1 <= d <= deg && 0 <= i < |totals[d]| ==> r[d][i] == totals[d][i] + hws[d][i])
  {
  }

  /** The order in which chunks are processed does not change the totals. */
  lemma ChunkOrderIrrelevant(totals: Table, a: Table, b: Table, deg: nat)
    requires Conforms(totals, a, deg) && Conforms(totals, b, deg)
    ensures Conforms(AddDegrees(totals, a, deg), b, deg) && Conforms(AddDegrees(totals, b, deg), a, deg)
    ensures AddDegrees(AddDegrees(totals, a, deg), b, deg) == AddDegrees(AddDegrees(totals, b, deg), a, deg)
  {
    var ab := AddDegrees(AddDegrees(totals, a, deg), b, deg);
    var ba := AddDegrees(AddDegrees(totals, b, deg), a, deg);
    forall d | 0 <= d < |totals|
      ensures ab[d] == ba[d]
    {
      if 1 <= d <= deg {
        assert forall i :: 0 <= i < |totals[d]| ==> ab[d][i] == totals[d][i] + a[d][i] + b[d][i] == ba[d][i];
      }
    }
  }

  /** Chunks are consistent with the totals when each could be added in. */
  predicate AllConform(totals: Table, chunks: seq<Table>, deg: nat) {
    forall k :: 0 <= k < |chunks| ==> Conforms(totals, chunks[k], deg)
  }

  /** The totals after processing `chunks` in order. */
  function AddAll(totals: Table, chunks: seq<Table>, deg: nat): (r: Table)
    requires AllConform(totals, chunks, deg)
    ensures SameShape(r, totals)
    decreases |chunks|
  {
    if |chunks| == 0 then totals
    else
      var prev := AddAll(totals, chunks[..|chunks| - 1], deg);
      assert Conforms(prev, chunks[|chunks| - 1], deg);
      AddDegrees(prev, chunks[|chunks| - 1], deg)
  }

  /** The weights of term `i` of degree `d` summed over all chunks. */
  function ColumnSum(chunks: seq<Table>, d: nat, i: nat): int
    requires forall k :: 0 <= k < |chunks| ==> d < |chunks[k]| && i < |chunks[k][d]|
    decreases |chunks|
  {
    if |chunks| == 0 then 0
    else ColumnSum(chunks[..|chunks| - 1], d, i) + chunks[|chunks| - 1][d][i]
  }

  /**
   * After any sequence of chunks, each entry of degree 1..deg is its start
   * value plus that term's weight summed over the chunks, and row 0 is
   * unchanged.
   */
  lemma {:induction false} TotalsAreColumnSums(totals: Table, chunks: seq<Table>, deg: nat, d: nat, i: nat)
    requires AllConform(totals, chunks, deg) && 1 <= d <= deg < |totals| && i < |totals[d]|
    ensures AddAll(totals, chunks, deg)[d][i] == totals[d][i] + ColumnSum(chunks, d, i)
    ensures AddAll(totals, chunks, deg)[0] == totals[0]
    decreases |chunks|
  {
    if |chunks| > 0 {
      var p := chunks[..|chunks| - 1];
      assert AllConform(totals, p, deg) by {
        assert forall k :: 0 <= k < |p| ==> p[k] == chunks[k];
      }
      TotalsAreColumnSums(totals, p, deg, d, i);
      var prev := AddAll(totals, p, deg);
      AddDegreesEntries(prev, chunks[|chunks| - 1], deg);
    }
  }

  /** The accumulation loops of `proces_chunk` and `process_ref`, adding into a copy of the totals. */
  method Accumulate(totals: Table, hws: Table, deg: nat) returns (sums: Table)
    requires Conforms(totals, hws, deg)
    ensures sums == AddDegrees(totals, hws, deg)
  {
    sums := totals;
    var d := 1;
    while d <= deg
      invariant 1 <= d <= deg + 1
      invariant |sums| == |totals|
      invariant forall e :: 0 <= e < |totals| ==> sums[e] == (if 1 <= e < d then AddRow(totals[e], hws[e]) else totals[e])
    {
      ghost var before := sums;
      var i := 0;
      while i < |sums[d]|
        invariant |sums| == |totals|
        invariant 0 <= i <= |sums[d]| == |totals[d]|
        invariant forall e :: 0 <= e < |totals| && e != d ==> sums[e] == before[e]
        invariant forall k :: 0 <= k < i ==> sums[d][k] == totals[d][k] + hws[d][k]
        invariant forall k :: i <= k < |sums[d]| ==> sums[d][k] == totals[d][k]
      {
        sums := sums[d := sums[d][i := sums[d][i] + hws[d][i]]];
        i := i + 1;
      }
      assert sums[d] == AddRow(totals[d], hws[d]);
      d := d + 1;
    }
  }

  /** The loop adding each input polynomial's weight into its running total. */
  method AddCounts(counts: seq<int>, add: seq<int>) returns (sums: seq<int>)
    requires |add| >= |counts|
    ensures |sums| == |counts|
    ensures forall k :: 0 <= k < |counts| ==> sums[k] == counts[k] + add[k]
  {
    sums := counts;
    var k := 0;
    while k < |sums|
      invariant 0 <= k <= |sums| == |counts|
      invariant forall j :: 0 <= j < k ==> sums[j] == counts[j] + add[j]
      invariant forall j :: k <= j < |sums| ==> sums[j] == counts[j]
    {
      sums := sums[k := sums[k] + add[k]];
      k := k + 1;
    }
  }

  /** Why a chunk is refused: the reference stream has a different length. */
  datatype HwError = RefSizeMismatch

  /** A table of zeros with the given row lengths. */
  function Zeros(rowSizes: seq<nat>): (r: Table)
    ensures |r| == |rowSizes|
    ensures forall d :: 0 <= d < |r| ==> |r[d]| == rowSizes[d] && forall i :: 0 <= i < |r[d]| ==> r[d][i] == 0
  {
    seq(|rowSizes|, d requires 0 <= d < |rowSizes| => seq(rowSizes[d], _ => 0))
  }

  /** The accumulating state of the analysis. */
  class HWAnalysis {
    const deg: nat
    const allDegCompute: bool
    var totalHws: Table
    var refTotalHws: Table
    var totalN: int
    var inputPolyHws: seq<int>

    /** `init`: zeroed totals with one row per degree 0..deg, of the given sizes. */
    constructor (deg: nat, allDegCompute: bool, rowSizes: seq<nat>, polyCount: nat)
      requires |rowSizes| == deg + 1
      ensures this.deg == deg && this.allDegCompute == allDegCompute
      ensures totalHws == Zeros(rowSizes) && refTotalHws == Zeros(rowSizes)
      ensures totalN == 0 && inputPolyHws == seq(polyCount, _ => 0)
    {
      this.deg := deg;
      this.allDegCompute := allDegCompute;
      totalHws := Zeros(rowSizes);
      refTotalHws := Zeros(rowSizes);
      totalN := 0;
      inputPolyHws := seq(polyCount, _ => 0);
    }

    /**
     * `process_ref(ref_bits, ln)`: nothing without a reference stream, an
     * error when its length differs from the chunk's, and otherwise, when
     * all degrees are computed, its weights are added to the reference
     * totals and returned. `refLen` is the length of the reference chunk,
     * `refHws` the weights the evaluator computes for it.
     */
    method ProcessRef(refLen: Option<nat>, ln: nat, refHws: Table) returns (r: Result<Option<Table>, HwError>)
      requires refLen == Some(ln) && allDegCompute ==> Conforms(refTotalHws, refHws, deg)
      modifies this
      ensures r.Err? <==> refLen.Some? && refLen.value != ln
      ensures r == Ok(Some(refHws)) <==> refLen == Some(ln) && allDegCompute
      ensures r == Ok(None) <==> refLen.None? || (refLen == Some(ln) && !allDegCompute)
      ensures refTotalHws == if refLen == Some(ln) && allDegCompute then AddDegrees(old(refTotalHws), refHws, deg)
                             else old(refTotalHws)
      ensures totalHws == old(totalHws) && totalN == old(totalN) && inputPolyHws == old(inputPolyHws)
    {
      if refLen.None? {
        return Ok(None);
      }
      if refLen.value != ln {
        return Err(RefSizeMismatch);
      }
      if allDegCompute {
        refTotalHws := Accumulate(refTotalHws, refHws, deg);
        return Ok(Some(refHws));
      }
      return Ok(None);
    }

    /**
     * `proces_chunk`: adds the chunk's term weights `hws2` into the totals
     * (when all degrees are computed), each input polynomial's weight into
     * its total, and the number of evaluations into `total_n`; then handles
     * the reference stream. A reference error leaves the earlier updates
     * in place, as the exception does.
     */
    method ProcessChunk(ln: nat, hws2: Table, hwsInput: seq<int>, curEvals: int, refLen: Option<nat>, refHws: Table)
      returns (r: Result<Option<Table>, HwError>)
      requires allDegCompute ==> Conforms(totalHws, hws2, deg)
      requires |hwsInput| >= |inputPolyHws|
      requires refLen == Some(ln) && allDegCompute ==> Conforms(refTotalHws, refHws, deg)
      modifies this
      ensures totalHws == if allDegCompute then AddDegrees(old(totalHws), hws2, deg) else old(totalHws)
      ensures |inputPolyHws| == |old(inputPolyHws)|
      ensures forall k :: 0 <= k < |inputPolyHws| ==> inputPolyHws[k] == old(inputPolyHws)[k] + hwsInput[k]
      ensures totalN == old(totalN) + curEvals
      ensures refTotalHws == if refLen == Some(ln) && allDegCompute then AddDegrees(old(refTotalHws), refHws, deg)
                             else old(refTotalHws)
      ensures r.Err? <==> refLen.Some? && refLen.value != ln
      ensures r == Ok(Some(refHws)) <==> refLen == Some(ln) && allDegCompute
      ensures r == Ok(None) <==> refLen.None? || (refLen == Some(ln) && !allDegCompute)
    {
      if allDegCompute {
        totalHws := Accumulate(totalHws, hws2, deg);
      }
      inputPolyHws := AddCounts(inputPolyHws, hwsInput);
      totalN := totalN + curEvals;
      r := ProcessRef(refLen, ln, refHws);
    }
  }
}

=== FILE: poly_input.dfy ===
/**
 * Input polynomials of the polynomial verifier's `App`: the validator and
 * normaliser `_fix_poly` and the loader `load_input_poly`.
 *
 * A polynomial is a JSON list of terms, a term a list of variable indices.
 * `_fix_poly` wraps a flat list into a one-term polynomial, checks every
 * term and variable, and handles a variable at or above the block length
 * by giving up quietly (`poly_ignore`), by reducing it modulo the block
 * length in place (`poly_mod`) or by refusing the polynomial.
 *
 * Results in Python terms: `Keep(p)` is a returned polynomial,
 * `Halted(Ignored)` a returned None, `Halted(Refused(e))` a raised error.
 */
module PolyInput {
  import opened Wrappers

  /** A parsed JSON value; every kind the validator does not look into is `JOther`. */
  datatype Json =
    | JInt(n: int)            // an `int` or `long`
    | JBool(b: bool)          // `true`/`false`, which Python treats as the integers 1 and 0
    | JList(items: seq<Json>)
    | JOther                  // null, a float, a string or an object

  /** `isinstance(v, (int, long))`. */
  predicate IsInt(v: Json) {
    v.JInt? || v.JBool?
  }

  function IntOf(v: Json): int
    requires IsInt(v)
  {
    if v.JInt? then v.n else if v.b then 1 else 0
  }

  /** Why a polynomial is refused. */
  datatype PolyError =
    | NotJson              // `json.loads` raised
    | NotAList             // the polynomial is not a list
    | EmptyPolynomial
    | TermNotAList
    | VariableNotANumber
    | VariableOutOfRange   // at or above the block length, neither ignored nor reduced
    | ZeroDivision         // `var % blocklen` with a zero block length

  /** How validation stops early: returning None, or raising. */
  datatype Halt = Ignored | Refused(error: PolyError)

  datatype Outcome<T> = Keep(value: T) | Halted(halt: Halt)

  /** The settings `_fix_poly` reads: the block length and the two flags. */
  datatype PolyConfig = PolyConfig(blocklen: int, ignore: bool, mod: bool)

  /** Python's `a // b`, rounding towards minus infinity. */
  function PyDiv(a: int, b: int): (q: int)
    requires b != 0
    // The largest `q` with `b * q <= a` for a positive `b`, and the least
    // with `b * q >= a` for a negative one.
    ensures b > 0 ==> b * q <= a < b * q + b
    ensures b < 0 ==> b * q + b < a <= b * q
  {
    if b > 0 then a / b
    else
      var q := (-a) / (-b);
      assert -a == (-b) * q + (-a) % (-b);
      assert (-b) * q == -(b * q);
      q
  }

  /** Python's `a % b`: the remainder of `a // b`, with the sign of the divisor. */
  function PyMod(a: int, b: int): (r: int)
    requires b != 0
    ensures b > 0 ==> 0 <= r < b
    ensures b < 0 ==> b < r <= 0
    ensures a == b * PyDiv(a, b) + r
  {
    if b > 0 then a % b
    else
      var q := (-a) / (-b);
      assert -a == (-b) * q + (-a) % (-b);
      assert (-b) * q == -(b * q);
      -((-a) % (-b))
  }

  /** The checks `_fix_poly` makes on one variable, and its rewrite. */
  function FixVar(c: PolyConfig, v: Json): (r: Outcome<Json>)
    ensures r == Halted(Refused(VariableNotANumber)) <==> !IsInt(v)
    ensures r == Halted(Ignored) <==> IsInt(v) && IntOf(v) >= c.blocklen && c.ignore
    ensures r == Halted(Refused(VariableOutOfRange)) <==> IsInt(v) && IntOf(v) >= c.blocklen && !c.ignore && !c.mod
    ensures r == Halted(Refused(ZeroDivision)) <==> IsInt(v) && IntOf(v) >= 0 && c.blocklen == 0 && !c.ignore && c.mod
    ensures r.Halted? ==> r.halt.Ignored? || r.halt.error in {VariableNotANumber, VariableOutOfRange, ZeroDivision}
    ensures r.Keep? <==> IsInt(v) && (IntOf(v) < c.blocklen || (!c.ignore && c.mod && c.blocklen != 0))
    ensures r.Keep? && IntOf(v) < c.blocklen ==> r.value == v
    ensures r.Keep? && IntOf(v) >= c.blocklen ==> r.value == JInt(PyMod(IntOf(v), c.blocklen))
    ensures r.Keep? && (!c.mod || c.blocklen > 0) ==> IsInt(r.value) && IntOf(r.value) < c.blocklen
  {
    if !IsInt(v) then Halted(Refused(VariableNotANumber))
    else if IntOf(v) < c.blocklen then Keep(v)
    else if c.ignore then Halted(Ignored)
    else if !c.mod then Halted(Refused(VariableOutOfRange))
    else if c.blocklen == 0 then Halted(Refused(ZeroDivision))
    else Keep(JInt(PyMod(IntOf(v), c.blocklen)))
  }

  /**
   * A left-to-right pass over `xs`: each element is replaced by what `f`
   * makes of it, and the first element `f` halts on halts the whole pass.
   */
  function Sweep(xs: seq<Json>, f: Json -> Outcome<Json>): (r: Outcome<seq<Json>>)
    ensures r.Keep? ==> |r.value| == |xs|
    decreases |xs|
  {
    if |xs| == 0 then Keep([])
    else
      match Sweep(xs[..|xs| - 1], f)
      case Halted(h) => Halted(h)
      case Keep(done) =>
        match f(xs[|xs| - 1])
        case Halted(h) => Halted(h)
        case Keep(y) => Keep(done + [y])
  }

  function VarFixer(c: PolyConfig): Json -> Outcome<Json> {
    v => FixVar(c, v)
  }

  /** The checks on one term: it is a list, and each of its variables passes. */
  function FixTerm(c: PolyConfig, t: Json): (r: Outcome<Json>)
    ensures !t.JList? ==> r == Halted(Refused(TermNotAList))
    ensures r.Keep? ==> t.JList? && r.value.JList? && |r.value.items| == |t.items|
  {
    if !t.JList? then Halted(Refused(TermNotAList))
    else
      match Sweep(t.items, VarFixer(c))
      case Halted(h) => Halted(h)
      case Keep(vs) => Keep(JList(vs))
  }

  function TermFixer(c: PolyConfig): Json -> Outcome<Json> {
    t => FixTerm(c, t)
  }

  /** The terms of a non-empty list: itself, or itself as the only term when its first element is not a list. */
  function TermsOf(poly: Json): (ts: seq<Json>)
    requires poly.JList? && |poly.items| > 0
    ensures |ts| > 0 && ts[0].JList?
  {
    if poly.items[0].JList? then poly.items else [poly]
  }

  /** `_fix_poly(poly)`. */
  function FixPolyOf(c: PolyConfig, poly: Json): (r: Outcome<Json>)
    ensures r.Keep? ==> poly.JList? && |poly.items| > 0 && r.value.JList? && |r.value.items| == |TermsOf(poly)|
  {
    if !poly.JList? then Halted(Refused(NotAList))
    else if |poly.items| == 0 then Halted(Refused(EmptyPolynomial))
    else
      match Sweep(TermsOf(poly), TermFixer(c))
      case Halted(h) => Halted(h)
      case Keep(ts) => Keep(JList(ts))
  }

  /** Every term a list and every variable an integer. */
  predicate WellFormedTerms(ts: seq<Json>) {
    forall i :: 0 <= i < |ts| ==> ts[i].JList? && forall j :: 0 <= j < |ts[i].items| ==> IsInt(ts[i].items[j])
  }

  predicate WellFormed(poly: Json) {
    poly.JList? && |poly.items| > 0 && WellFormedTerms(TermsOf(poly))
  }

  /** Every integer variable lies below `bound`. */
  predicate AllBelow(ts: seq<Json>, bound: int) {
    forall i, j :: 0 <= i < |ts| && ts[i].JList? && 0 <= j < |ts[i].items| && IsInt(ts[i].items[j])
      ==> IntOf(ts[i].items[j]) < bound
  }

  // ---------------------------------------------------------------------
  // The left-to-right pass

  /** The pass keeps everything exactly when `f` keeps every element, and then holds what `f` made of each. */
  lemma {:induction false} SweepAllKept(xs: seq<Json>, f: Json -> Outcome<Json>)
    ensures Sweep(xs, f).Keep? <==> forall j :: 0 <= j < |xs| ==> f(xs[j]).Keep?
    ensures Sweep(xs, f).Keep? ==> forall j :: 0 <= j < |xs| ==> f(xs[j]) == Keep(Sweep(xs, f).value[j])
    decreases |xs|
  {
    if |xs| > 0 {
      var p := xs[..|xs| - 1];
      SweepAllKept(p, f);
      assert forall j :: 0 <= j < |p| ==> p[j] == xs[j];
    }
  }

  /** The first element `f` halts on decides the outcome; nothing after it is looked at. */
  lemma {:induction false} SweepFirstHalt(xs: seq<Json>, f: Json -> Outcome<Json>, k: int)
    requires 0 <= k < |xs| && f(xs[k]).Halted?
    requires forall j :: 0 <= j < k ==> f(xs[j]).Keep?
    ensures Sweep(xs, f) == Halted(f(xs[k]).halt)
    decreases |xs|
  {
    var p := xs[..|xs| - 1];
    if k == |xs| - 1 {
      SweepAllKept(p, f);
      assert forall j :: 0 <= j < |p| ==> p[j] == xs[j];
    } else {
      assert p[k] == xs[k] && forall j :: 0 <= j < k ==> p[j] == xs[j];
      SweepFirstHalt(p, f, k);
    }
  }

  /** Once a prefix has halted, the whole pass has halted the same way. */
  lemma {:induction false} SweepPrefixHalted(xs: seq<Json>, f: Json -> Outcome<Json>, k: nat)
    requires k <= |xs| && Sweep(xs[..k], f).Halted?
    ensures Sweep(xs, f) == Sweep(xs[..k], f)
    decreases |xs|
  {
    if k < |xs| {
      var p := xs[..|xs| - 1];
      assert p[..k] == xs[..k];
      SweepPrefixHalted(p, f, k);
    } else {
      assert xs[..k] == xs;
    }
  }

  /** A halted pass halted on some element. */
  lemma {:induction false} SweepHaltOf(xs: seq<Json>, f: Json -> Outcome<Json>)
    requires Sweep(xs, f).Halted?
    ensures exists j :: 0 <= j < |xs| && f(xs[j]) == Halted(Sweep(xs, f).halt)
    decreases |xs|
  {
    var p := xs[..|xs| - 1];
    if Sweep(p, f).Halted? {
      SweepHaltOf(p, f);
      var j :| 0 <= j < |p| && f(p[j]) == Halted(Sweep(p, f).halt);
      assert p[j] == xs[j];
    } else {
      assert f(xs[|xs| - 1]) == Halted(Sweep(xs, f).halt);
    }
  }

  /** A pass over elements `f` leaves alone keeps them all unchanged. */
  lemma {:induction false} SweepFixed(xs: seq<Json>, f: Json -> Outcome<Json>)
    requires forall j :: 0 <= j < |xs| ==> f(xs[j]) == Keep(xs[j])
    ensures Sweep(xs, f) == Keep(xs)
    decreases |xs|
  {
    if |xs| > 0 {
      var p := xs[..|xs| - 1];
      assert forall j :: 0 <= j < |p| ==> p[j] == xs[j];
      SweepFixed(p, f);
      assert p + [xs[|xs| - 1]] == xs;
    }
  }

  // ---------------------------------------------------------------------
  // What `_fix_poly` promises

  /**
   * A polynomial is returned exactly when it is well formed and every
   * variable is below the block length, or out-of-range variables are
   * reduced (`poly_mod` without `poly_ignore`, and a non-zero block length).
   */
  lemma FixPolyKeepIff(c: PolyConfig, poly: Json)
    ensures FixPolyOf(c, poly).Keep?
      <==> WellFormed(poly) && (AllBelow(TermsOf(poly), c.blocklen) || (c.mod && !c.ignore && c.blocklen != 0))
  {
    if poly.JList? && |poly.items| > 0 {
      var ts := TermsOf(poly);
      SweepAllKept(ts, TermFixer(c));
      forall i | 0 <= i < |ts| && ts[i].JList? {
        SweepAllKept(ts[i].items, VarFixer(c));
      }
    }
  }

  /**
   * A returned polynomial has the shape of the input's terms, and each of
   * its variables is what the variable check made of the input's: the same
   * value, or the value reduced modulo the block length.
   */
  lemma FixPolyKept(c: PolyConfig, poly: Json)
    requires FixPolyOf(c, poly).Keep?
    ensures poly.JList? && |poly.items| > 0
    ensures var ts := TermsOf(poly); var q := FixPolyOf(c, poly).value;
      && q.JList? && |q.items| == |ts|
      && forall i :: 0 <= i < |ts| ==>
           && ts[i].JList? && q.items[i].JList? && |q.items[i].items| == |ts[i].items|
           && forall j :: 0 <= j < |ts[i].items| ==> FixVar(c, ts[i].items[j]) == Keep(q.items[i].items[j])
  {
    var ts := TermsOf(poly);
    var qs := Sweep(ts, TermFixer(c)).value;
    SweepAllKept(ts, TermFixer(c));
    forall i | 0 <= i < |ts|
      ensures ts[i].JList? && qs[i].JList? && |qs[i].items| == |ts[i].items|
      ensures forall j :: 0 <= j < |ts[i].items| ==> FixVar(c, ts[i].items[j]) == Keep(qs[i].items[j])
    {
      assert FixTerm(c, ts[i]) == Keep(qs[i]);
      SweepAllKept(ts[i].items, VarFixer(c));
    }
  }

  /**
   * Unless out-of-range variables are reduced modulo a negative block
   * length, a returned polynomial is well formed and every variable in it
   * is below the block length.
   */
  lemma FixPolyInRange(c: PolyConfig, poly: Json)
    requires FixPolyOf(c, poly).Keep? && (!c.mod || c.blocklen >= 0)
    ensures WellFormed(FixPolyOf(c, poly).value)
    ensures AllBelow(FixPolyOf(c, poly).value.items, c.blocklen)
  {
    FixPolyKept(c, poly);
  }

  /** A variable the check keeps passes the check again unchanged. */
  lemma FixVarIdempotent(c: PolyConfig, v: Json)
    requires FixVar(c, v).Keep?
    ensures FixVar(c, FixVar(c, v).value) == FixVar(c, v)
  {
    var w := FixVar(c, v).value;
    if IntOf(v) >= c.blocklen && c.blocklen < 0 {
      // A remainder modulo a negative block length lies in `(blocklen, 0]`,
      // where Python's `%` leaves it unchanged.
      var m := IntOf(w);
      assert -m == (-c.blocklen) * 0 + (-m);
      assert (-m) % (-c.blocklen) == -m;
    }
  }

  /** Fixing a returned polynomial again returns it unchanged. */
  lemma FixPolyIdempotent(c: PolyConfig, poly: Json)
    requires FixPolyOf(c, poly).Keep?
    ensures FixPolyOf(c, FixPolyOf(c, poly).value) == FixPolyOf(c, poly)
  {
    FixPolyKept(c, poly);
    var ts := TermsOf(poly);
    var q := FixPolyOf(c, poly).value;
    assert TermsOf(q) == q.items;
    forall i | 0 <= i < |q.items|
      ensures FixTerm(c, q.items[i]) == Keep(q.items[i])
    {
      forall j | 0 <= j < |q.items[i].items|
        ensures FixVar(c, q.items[i].items[j]) == Keep(q.items[i].items[j])
      {
        FixVarIdempotent(c, ts[i].items[j]);
      }
      SweepFixed(q.items[i].items, VarFixer(c));
    }
    SweepFixed(q.items, TermFixer(c));
  }

  /** A flat list of variables is checked as the one-term polynomial holding it. */
  lemma FlatListWrapped(c: PolyConfig, poly: Json)
    requires poly.JList? && |poly.items| > 0 && !poly.items[0].JList?
    ensures FixPolyOf(c, poly) == FixPolyOf(c, JList([poly]))
    ensures FixPolyOf(c, poly).Keep? ==> |FixPolyOf(c, poly).value.items| == 1
  {
    assert TermsOf(JList([poly])) == [poly] == TermsOf(poly);
  }

  /** A halted check halted on a term that is not a list, or on one variable of a term. */
  lemma FixPolyHaltOf(c: PolyConfig, poly: Json)
    requires poly.JList? && |poly.items| > 0 && FixPolyOf(c, poly).Halted?
    ensures var ts := TermsOf(poly); var h := FixPolyOf(c, poly).halt;
      exists i :: 0 <= i < |ts| &&
        ((!ts[i].JList? && h == Refused(TermNotAList))
         || (ts[i].JList? && exists j :: 0 <= j < |ts[i].items| && FixVar(c, ts[i].items[j]) == Halted(h)))
  {
    var ts := TermsOf(poly);
    SweepHaltOf(ts, TermFixer(c));
    var i :| 0 <= i < |ts| && FixTerm(c, ts[i]) == Halted(FixPolyOf(c, poly).halt);
    if ts[i].JList? {
      SweepHaltOf(ts[i].items, VarFixer(c));
    }
  }

  /** Each way of halting arises only in the situation the source raises it or returns None. */
  lemma FixPolyHalts(c: PolyConfig, poly: Json)
    ensures FixPolyOf(c, poly) == Halted(Refused(NotAList)) <==> !poly.JList?
    ensures FixPolyOf(c, poly) == Halted(Refused(EmptyPolynomial)) <==> poly == JList([])
    ensures FixPolyOf(c, poly) != Halted(Refused(NotJson))
    ensures FixPolyOf(c, poly) == Halted(Refused(TermNotAList))
      ==> poly.JList? && |poly.items| > 0 && exists i :: 0 <= i < |TermsOf(poly)| && !TermsOf(poly)[i].JList?
    ensures FixPolyOf(c, poly) == Halted(Refused(VariableNotANumber)) ==> !WellFormed(poly)
    ensures FixPolyOf(c, poly) == Halted(Refused(VariableOutOfRange))
      ==> !c.ignore && !c.mod && poly.JList? && |poly.items| > 0 && !AllBelow(TermsOf(poly), c.blocklen)
    ensures FixPolyOf(c, poly) == Halted(Refused(ZeroDivision)) ==> !c.ignore && c.mod && c.blocklen == 0
    ensures FixPolyOf(c, poly) == Halted(Ignored)
      ==> c.ignore && poly.JList? && |poly.items| > 0 && !AllBelow(TermsOf(poly), c.blocklen)
  {
    if poly.JList? && |poly.items| > 0 && FixPolyOf(c, poly).Halted? {
      FixPolyHaltOf(c, poly);
    }
  }

  /**
   * With `poly_ignore`, a well-formed polynomial with a variable at or
   * above the block length gives None.
   */
  lemma IgnoredWhenOutOfRange(c: PolyConfig, poly: Json)
    requires c.ignore && WellFormed(poly) && !AllBelow(TermsOf(poly), c.blocklen)
    ensures FixPolyOf(c, poly) == Halted(Ignored)
  {
    FixPolyKeepIff(c, poly);
    FixPolyHaltOf(c, poly);
  }

  // ---------------------------------------------------------------------
  // Loading

  /** Python 2's `str.isspace()` for one character. */
  predicate IsSpace(ch: char) {
    ch == ' ' || ch == '\t' || ch == '\n' || ch == '\r' || ch == '\U{000B}' || ch == '\U{000C}'
  }

  predicate AllSpace(s: string) {
    forall j :: 0 <= j < |s| ==> IsSpace(s[j])
  }

  /** `s` without its leading whitespace. */
  function StripLeft(s: string): (t: string)
    ensures |t| <= |s| && t == s[|s| - |t|..] && AllSpace(s[..|s| - |t|])
    ensures |t| > 0 ==> !IsSpace(t[0])
  {
    var n := LeadingSpaces(s);
    assert |s| - |s[n..]| == n;
    s[n..]
  }

  /** How many whitespace characters `s` starts with. */
  function LeadingSpaces(s: string): (n: nat)
    ensures n <= |s| && AllSpace(s[..n])
    ensures n < |s| ==> !IsSpace(s[n])
  {
    if |s| > 0 && IsSpace(s[0]) then
      var n := 1 + LeadingSpaces(s[1..]);
      LeadingSpace(s, n);
      assert n < |s| ==> s[n] == s[1..][n - 1];
      n
    else 0
  }

  /** A space followed by spaces is a run of spaces. */
  lemma LeadingSpace(s: string, k: nat)
    requires 0 < k <= |s| && IsSpace(s[0]) && AllSpace(s[1..][..k - 1])
    ensures AllSpace(s[..k])
  {
    assert forall j :: 1 <= j < k ==> s[..k][j] == s[1..][..k - 1][j - 1];
  }

  /** `s` without its trailing whitespace. */
  function StripRight(s: string): (t: string)
    ensures |t| <= |s| && t == s[..|t|] && AllSpace(s[|t|..])
    ensures |t| > 0 ==> !IsSpace(t[|t| - 1])
  {
    if |s| > 0 && IsSpace(s[|s| - 1]) then
      var t := StripRight(s[..|s| - 1]);
      assert s[|t|..] == s[..|s| - 1][|t|..] + [s[|s| - 1]];
      t
    else s
  }

  /** `str.strip()`: the line between its leading and trailing whitespace. */
  function Strip(s: string): (t: string)
    ensures |t| > 0 ==> !IsSpace(t[0]) && !IsSpace(t[|t| - 1])
    ensures |t| == 0 <==> AllSpace(s)
    // `t` is the middle of `s`, with whitespace only on either side of it.
    ensures var a := LeadingSpaces(s);
      && a + |t| <= |s| && t == s[a..a + |t|] && AllSpace(s[..a]) && AllSpace(s[a + |t|..])
  {
    var a := LeadingSpaces(s);
    var l := StripLeft(s);
    var t := StripRight(l);
    SliceOfSuffix(s, a, |t|);
    assert |t| == 0 ==> s == s[..a] + l;
    t
  }

  /** The first `n` characters of `s[a..]`, and the rest, as slices of `s`. */
  lemma SliceOfSuffix(s: string, a: nat, n: nat)
    requires a + n <= |s|
    ensures s[a..][..n] == s[a..a + n] && s[a..][n..] == s[a + n..]
  {
  }

  /** A stripped line of a polynomial file that is read: not blank and not a `#` or `//` comment. */
  predicate KeepLine(line: string) {
    |line| > 0 && line[0] != '#' && !(|line| >= 2 && line[..2] == "//")
  }

  /** `_fix_poly(json.loads(text))`; the JSON parser is a parameter. */
  function ParsePoly(c: PolyConfig, loads: string -> Option<Json>, text: string): (r: Outcome<Json>)
    ensures loads(text).None? ==> r == Halted(Refused(NotJson))
    ensures loads(text).Some? ==> r == FixPolyOf(c, loads(text).value)
  {
    match loads(text)
    case None => Halted(Refused(NotJson))
    case Some(j) => FixPolyOf(c, j)
  }

  /** What loading appends to `input_poly`, and the error that stopped it, if any. */
  datatype Loaded = Loaded(added: seq<Option<Json>>, failure: Option<PolyError>)

  /** One `--poly` argument: its result is appended, None included. */
  function LoadArg(c: PolyConfig, loads: string -> Option<Json>, prev: Loaded, text: string): (r: Loaded)
    requires prev.failure.None?
    ensures r.failure.None? ==> |r.added| == |prev.added| + 1 && r.added[..|prev.added|] == prev.added
    ensures r.failure.Some? ==> r.added == prev.added
  {
    match ParsePoly(c, loads, text)
    case Keep(q) => Loaded(prev.added + [Some(q)], None)
    case Halted(Ignored) => Loaded(prev.added + [None], None)
    case Halted(Refused(e)) => Loaded(prev.added, Some(e))
  }

  /** The `--poly` arguments, in order, up to the first error. */
  function LoadArgs(c: PolyConfig, loads: string -> Option<Json>, polys: seq<string>): (r: Loaded)
    ensures r.failure.None? ==> |r.added| == |polys|
    ensures |r.added| <= |polys|
    decreases |polys|
  {
    if |polys| == 0 then Loaded([], None)
    else
      var prev := LoadArgs(c, loads, polys[..|polys| - 1]);
      if prev.failure.Some? then prev
      else LoadArg(c, loads, prev, polys[|polys| - 1])
  }

  /** A line of a polynomial file that is read and whose polynomial raises. */
  predicate LineRefused(c: PolyConfig, loads: string -> Option<Json>, raw: string) {
    KeepLine(Strip(raw)) && ParsePoly(c, loads, Strip(raw)).Halted? && ParsePoly(c, loads, Strip(raw)).halt.Refused?
  }

  /** The polynomial a file line contributes: one when it is read and kept, none otherwise. */
  function LinePoly(c: PolyConfig, loads: string -> Option<Json>, raw: string): (r: seq<Option<Json>>)
    ensures |r| <= 1 && (|r| == 1 ==> r[0].Some?)
  {
    var line := Strip(raw);
    if KeepLine(line) && ParsePoly(c, loads, line).Keep? then [Some(ParsePoly(c, loads, line).value)] else []
  }

  /** The polynomials the lines contribute, in order, ignoring errors. */
  function LinePolys(c: PolyConfig, loads: string -> Option<Json>, lines: seq<string>): (r: seq<Option<Json>>)
    decreases |lines|
  {
    if |lines| == 0 then []
    else LinePolys(c, loads, lines[..|lines| - 1]) + LinePoly(c, loads, lines[|lines| - 1])
  }

  /**
   * One line of a polynomial file: skipped when blank or a comment; a kept
   * polynomial is appended, an ignored one (None) is not, and a refused one
   * stops loading with its error.
   */
  function LoadLine(c: PolyConfig, loads: string -> Option<Json>, prev: Loaded, raw: string): (r: Loaded)
    requires prev.failure.None?
    ensures r.added == prev.added
      || (|r.added| == |prev.added| + 1 && r.added[..|prev.added|] == prev.added && r.added[|prev.added|].Some?)
    ensures !KeepLine(Strip(raw)) ==> r == prev
    ensures r.failure.Some? <==> LineRefused(c, loads, raw)
    ensures r.failure.None? ==> r.added == prev.added + LinePoly(c, loads, raw)
    ensures r.failure.Some? ==> r == Loaded(prev.added, Some(ParsePoly(c, loads, Strip(raw)).halt.error))
  {
    var line := Strip(raw);
    if !KeepLine(line) then prev
    else
      match ParsePoly(c, loads, line)
      case Keep(q) => Loaded(prev.added + [Some(q)], None)
      case Halted(Ignored) => prev
      case Halted(Refused(e)) => Loaded(prev.added, Some(e))
  }

  /** The lines of the polynomial files, in order, up to the first error. */
  function LoadLines(c: PolyConfig, loads: string -> Option<Json>, lines: seq<string>): (r: Loaded)
    ensures |r.added| <= |lines|
    ensures forall k :: 0 <= k < |r.added| ==> r.added[k].Some?
    decreases |lines|
  {
    if |lines| == 0 then Loaded([], None)
    else
      var prev := LoadLines(c, loads, lines[..|lines| - 1]);
      if prev.failure.Some? then prev
      else LoadLine(c, loads, prev, lines[|lines| - 1])
  }

  /** `load_input_poly`: the arguments first, then the file lines unless an argument failed. */
  function LoadOf(c: PolyConfig, loads: string -> Option<Json>, polys: seq<string>, lines: seq<string>): (r: Loaded)
    ensures |r.added| <= |polys| + |lines|
  {
    var a := LoadArgs(c, loads, polys);
    if a.failure.Some? then a
    else
      var l := LoadLines(c, loads, lines);
      Loaded(a.added + l.added, l.failure)
  }

  /** Python's `None` for an ignored polynomial. */
  function AsOption(o: Outcome<Json>): (r: Option<Json>)
    requires !o.Halted? || o.halt.Ignored?
    ensures r.Some? <==> o.Keep?
  {
    if o.Keep? then Some(o.value) else None
  }

  /** Without a failure, argument `k` contributes exactly entry `k`, None when it was ignored. */
  lemma LoadArgsEach(c: PolyConfig, loads: string -> Option<Json>, polys: seq<string>)
    requires LoadArgs(c, loads, polys).failure.None?
    ensures forall k :: 0 <= k < |polys| ==>
      (!ParsePoly(c, loads, polys[k]).Halted? || ParsePoly(c, loads, polys[k]).halt.Ignored?)
      && LoadArgs(c, loads, polys).added[k] == AsOption(ParsePoly(c, loads, polys[k]))
  {
    forall k | 0 <= k < |polys|
      ensures (!ParsePoly(c, loads, polys[k]).Halted? || ParsePoly(c, loads, polys[k]).halt.Ignored?)
        && LoadArgs(c, loads, polys).added[k] == AsOption(ParsePoly(c, loads, polys[k]))
    {
      LoadArgsEntry(c, loads, polys, k);
    }
  }

  /** Without a failure, entry `k` is argument `k`'s result. */
  lemma {:induction false} LoadArgsEntry(c: PolyConfig, loads: string -> Option<Json>, polys: seq<string>, k: nat)
    requires LoadArgs(c, loads, polys).failure.None? && k < |polys|
    ensures var o := ParsePoly(c, loads, polys[k]);
      && (!o.Halted? || o.halt.Ignored?)
      && LoadArgs(c, loads, polys).added[k] == AsOption(o)
    decreases |polys|
  {
    var n := |polys| - 1;
    var p := polys[..n];
    LoadArgsLast(c, loads, polys);
    if k < n {
      assert p[k] == polys[k];
      LoadArgsEntry(c, loads, p, k);
    }
  }

  /** Loading the arguments without error appends the last argument's result to what the others appended. */
  lemma LoadArgsLast(c: PolyConfig, loads: string -> Option<Json>, polys: seq<string>)
    requires |polys| > 0 && LoadArgs(c, loads, polys).failure.None?
    ensures var n := |polys| - 1;
      var o := ParsePoly(c, loads, polys[n]);
      && LoadArgs(c, loads, polys[..n]).failure.None?
      && (!o.Halted? || o.halt.Ignored?)
      && LoadArgs(c, loads, polys).added == LoadArgs(c, loads, polys[..n]).added + [AsOption(o)]
  {
  }

  /** A failure is final: later arguments are not read. */
  lemma {:induction false} LoadArgsStops(c: PolyConfig, loads: string -> Option<Json>, polys: seq<string>, k: nat)
    requires k <= |polys| && LoadArgs(c, loads, polys[..k]).failure.Some?
    ensures LoadArgs(c, loads, polys) == LoadArgs(c, loads, polys[..k])
    decreases |polys|
  {
    if k < |polys| {
      var p := polys[..|polys| - 1];
      assert p[..k] == polys[..k];
      LoadArgsStops(c, loads, p, k);
    } else {
      assert polys[..k] == polys;
    }
  }

  /** A failure is final: later lines are not read. */
  lemma {:induction false} LoadLinesStops(c: PolyConfig, loads: string -> Option<Json>, lines: seq<string>, k: nat)
    requires k <= |lines| && LoadLines(c, loads, lines[..k]).failure.Some?
    ensures LoadLines(c, loads, lines) == LoadLines(c, loads, lines[..k])
    decreases |lines|
  {
    if k < |lines| {
      var p := lines[..|lines| - 1];
      assert p[..k] == lines[..k];
      LoadLinesStops(c, loads, p, k);
    } else {
      assert lines[..k] == lines;
    }
  }

  /** Without an error, the lines add exactly the polynomials they contribute, in order. */
  lemma {:induction false} LoadLinesClean(c: PolyConfig, loads: string -> Option<Json>, lines: seq<string>)
    requires forall k :: 0 <= k < |lines| ==> !LineRefused(c, loads, lines[k])
    ensures LoadLines(c, loads, lines) == Loaded(LinePolys(c, loads, lines), None)
    decreases |lines|
  {
    if |lines| > 0 {
      var p := lines[..|lines| - 1];
      assert forall k :: 0 <= k < |p| ==> p[k] == lines[k];
      LoadLinesClean(c, loads, p);
    }
  }

  /** Loading the lines fails exactly when some line that is read has a polynomial that raises. */
  lemma LoadLinesFailsIff(c: PolyConfig, loads: string -> Option<Json>, lines: seq<string>)
    ensures LoadLines(c, loads, lines).failure.Some?
      <==> exists k :: 0 <= k < |lines| && LineRefused(c, loads, lines[k])
  {
    if exists k :: 0 <= k < |lines| && LineRefused(c, loads, lines[k]) {
      var k :| 0 <= k < |lines| && LineRefused(c, loads, lines[k]);
      LoadLinesFailsAt(c, loads, lines, k);
    } else {
      LoadLinesClean(c, loads, lines);
    }
  }

  /** A line whose polynomial raises makes loading fail, at it or before it. */
  lemma {:induction false} LoadLinesFailsAt(c: PolyConfig, loads: string -> Option<Json>, lines: seq<string>, k: nat)
    requires k < |lines| && LineRefused(c, loads, lines[k])
    ensures LoadLines(c, loads, lines).failure.Some?
    decreases |lines|
  {
    var n := |lines| - 1;
    if k < n {
      var p := lines[..n];
      assert p[k] == lines[k];
      LoadLinesFailsAt(c, loads, p, k);
      assert LoadLines(c, loads, p).failure.Some?;
      LoadLinesLast(c, loads, lines);
      assert LoadLines(c, loads, lines) == LoadLines(c, loads, p);
    } else {
      assert k == n;
      LoadLinesStep(c, loads, lines);
      assert LineRefused(c, loads, lines[n]);
    }
  }

  /** The last line is loaded after the others, unless they already failed. */
  lemma LoadLinesLast(c: PolyConfig, loads: string -> Option<Json>, lines: seq<string>)
    requires |lines| > 0
    ensures var n := |lines| - 1;
      var prev := LoadLines(c, loads, lines[..n]);
      LoadLines(c, loads, lines) == if prev.failure.Some? then prev else LoadLine(c, loads, prev, lines[n])
  {
  }

  /** Loading the lines fails when loading all but the last fails, or when the last raises. */
  lemma LoadLinesStep(c: PolyConfig, loads: string -> Option<Json>, lines: seq<string>)
    requires |lines| > 0
    ensures var n := |lines| - 1;
      (LoadLines(c, loads, lines).failure.Some?
       <==> LoadLines(c, loads, lines[..n]).failure.Some? || LineRefused(c, loads, lines[n]))
  {
  }

  /**
   * The first line whose polynomial raises ends loading with its error,
   * after the polynomials of the lines before it.
   */
  lemma {:induction false} LoadLinesRefused(c: PolyConfig, loads: string -> Option<Json>, lines: seq<string>, k: nat)
    requires k < |lines| && LineRefused(c, loads, lines[k])
    requires forall j :: 0 <= j < k ==> !LineRefused(c, loads, lines[j])
    ensures LoadLines(c, loads, lines)
      == Loaded(LinePolys(c, loads, lines[..k]), Some(ParsePoly(c, loads, Strip(lines[k])).halt.error))
    decreases |lines|
  {
    var n := |lines| - 1;
    var p := lines[..n];
    LoadLinesLast(c, loads, lines);
    if k == n {
      assert forall j :: 0 <= j < |p| ==> p[j] == lines[j];
      LoadLinesClean(c, loads, p);
      assert LoadLines(c, loads, p) == Loaded(LinePolys(c, loads, p), None);
      assert LoadLines(c, loads, lines) == LoadLine(c, loads, LoadLines(c, loads, p), lines[n]);
      assert p == lines[..k];
    } else {
      assert forall j :: 0 <= j <= k ==> p[j] == lines[j];
      assert p[..k] == lines[..k];
      LoadLinesRefused(c, loads, p, k);
      assert LoadLines(c, loads, p).failure.Some?;
      assert LoadLines(c, loads, lines) == LoadLines(c, loads, p);
    }
  }

  /** The lines that are read. */
  function KeptLines(lines: seq<string>): (r: seq<string>)
    ensures |r| <= |lines|
    ensures forall k :: 0 <= k < |r| ==> KeepLine(Strip(r[k]))
    decreases |lines|
  {
    if |lines| == 0 then []
    else
      var prev := KeptLines(lines[..|lines| - 1]);
      if KeepLine(Strip(lines[|lines| - 1])) then prev + [lines[|lines| - 1]] else prev
  }

  /** Blank and comment lines make no difference: loading only the kept lines gives the same result. */
  lemma {:induction false} SkippedLinesIrrelevant(c: PolyConfig, loads: string -> Option<Json>, lines: seq<string>)
    ensures LoadLines(c, loads, lines) == LoadLines(c, loads, KeptLines(lines))
    decreases |lines|
  {
    if |lines| > 0 {
      var p := lines[..|lines| - 1];
      var last := lines[|lines| - 1];
      SkippedLinesIrrelevant(c, loads, p);
      var kp := KeptLines(p);
      if KeepLine(Strip(last)) {
        var kl := kp + [last];
        assert KeptLines(lines) == kl;
        assert kl[..|kl| - 1] == kp;
      }
    }
  }

  /** The application object's polynomial settings and the polynomials loaded so far. */
  class App {
    const blocklen: int
    const polyIgnore: bool
    const polyMod: bool
    var inputPoly: seq<Option<Json>>

    constructor (blocklen: int, polyIgnore: bool, polyMod: bool)
      ensures this.blocklen == blocklen && this.polyIgnore == polyIgnore && this.polyMod == polyMod
      ensures inputPoly == []
    {
      this.blocklen := blocklen;
      this.polyIgnore := polyIgnore;
      this.polyMod := polyMod;
      inputPoly := [];
    }

    function Config(): PolyConfig
    {
      PolyConfig(blocklen, polyIgnore, polyMod)
    }

    /**
     * `_fix_poly`: checks the terms left to right and overwrites each
     * out-of-range variable with its remainder when `poly_mod` is set.
     */
    method FixPoly(poly: Json) returns (r: Outcome<Json>)
      ensures r == FixPolyOf(Config(), poly)
    {
      if !poly.JList? {
        return Halted(Refused(NotAList));
      }
      if |poly.items| == 0 {
        return Halted(Refused(EmptyPolynomial));
      }
      var terms := poly.items;
      if !terms[0].JList? {
        terms := [poly];
      }
      ghost var input := terms;
      var i := 0;
      while i < |terms|
        invariant 0 <= i <= |terms| == |input| && input == TermsOf(poly)
        invariant terms[i..] == input[i..]
        invariant Sweep(input[..i], TermFixer(Config())) == Keep(terms[..i])
      {
        assert terms[i] == terms[i..][0];
        var t := FixTermInPlace(terms[i]);
        if t.Halted? {
          HaltAtTerm(Config(), input, i);
          return t;
        }
        SweepStep(input, TermFixer(Config()), i, terms[..i]);
        ghost var done := terms[..i];
        ghost var rest := terms[i + 1..];
        assert rest == terms[i..][1..] && input[i + 1..] == input[i..][1..];
        terms := terms[i := t.value];
        assert terms[..i + 1] == done + [t.value];
        assert terms[i + 1..] == rest;
        i := i + 1;
      }
      assert input[..i] == input && terms[..i] == terms;
      return Keep(JList(terms));
    }

    /** The inner loop of `_fix_poly`: one term, its variables left to right. */
    method FixTermInPlace(term: Json) returns (r: Outcome<Json>)
      ensures r == FixTerm(Config(), term)
    {
      if !term.JList? {
        return Halted(Refused(TermNotAList));
      }
      var vars := term.items;
      var j := 0;
      while j < |vars|
        invariant 0 <= j <= |vars| == |term.items|
        invariant vars[j..] == term.items[j..]
        invariant Sweep(term.items[..j], VarFixer(Config())) == Keep(vars[..j])
      {
        var v := vars[j];
        assert v == term.items[j..][0];
        ghost var rest := vars[j + 1..];
        assert rest == vars[j..][1..] && term.items[j + 1..] == term.items[j..][1..];
        if !IsInt(v) {
          HaltAtVar(Config(), term.items, j);
          return Halted(Refused(VariableNotANumber));
        }
        if IntOf(v) >= blocklen {
          if polyIgnore {
            HaltAtVar(Config(), term.items, j);
            return Halted(Ignored);
          } else if polyMod {
            if blocklen == 0 {
              HaltAtVar(Config(), term.items, j);
              return Halted(Refused(ZeroDivision));
            }
            vars := vars[j := JInt(PyMod(IntOf(v), blocklen))];
          } else {
            HaltAtVar(Config(), term.items, j);
            return Halted(Refused(VariableOutOfRange));
          }
        }
        SweepStep(term.items, VarFixer(Config()), j, vars[..j]);
        assert vars[..j + 1] == vars[..j] + [vars[j]];
        assert vars[j + 1..] == rest;
        j := j + 1;
      }
      assert term.items[..j] == term.items && vars[..j] == vars;
      return Keep(JList(vars));
    }

    /** `self._fix_poly(json.loads(text))`. */
    method ParseAndFix(loads: string -> Option<Json>, text: string) returns (r: Outcome<Json>)
      ensures r == ParsePoly(Config(), loads, text)
    {
      var js := loads(text);
      if js.None? {
        return Halted(Refused(NotJson));
      }
      r := FixPoly(js.value);
    }

    /**
     * `load_input_poly`: appends the result of each `--poly` argument, then
     * of each kept line of the polynomial files (`lines`, every file's lines
     * in order), stopping at the first error.
     */
    method LoadInputPoly(polys: seq<string>, lines: seq<string>, loads: string -> Option<Json>)
      returns (failure: Option<PolyError>)
      modifies this
      ensures inputPoly == old(inputPoly) + LoadOf(Config(), loads, polys, lines).added
      ensures failure == LoadOf(Config(), loads, polys, lines).failure
    {
      ghost var before := inputPoly;
      failure := LoadPolyArgs(polys, loads);
      if failure.Some? {
        return;
      }
      ghost var mid := inputPoly;
      failure := LoadPolyLines(lines, loads);
      LoadOfThen(Config(), loads, polys, lines, before, mid, inputPoly);
    }

    /** The first loop of `load_input_poly`: the `--poly` arguments. */
    method LoadPolyArgs(polys: seq<string>, loads: string -> Option<Json>) returns (failure: Option<PolyError>)
      modifies this
      ensures inputPoly == old(inputPoly) + LoadArgs(Config(), loads, polys).added
      ensures failure == LoadArgs(Config(), loads, polys).failure
    {
      ghost var c := Config();
      var i := 0;
      while i < |polys|
        invariant 0 <= i <= |polys|
        invariant LoadArgs(c, loads, polys[..i]).failure.None?
        invariant inputPoly == old(inputPoly) + LoadArgs(c, loads, polys[..i]).added
      {
        ghost var prev := LoadArgs(c, loads, polys[..i]);
        assert polys[..i + 1][..i] == polys[..i];
        assert LoadArgs(c, loads, polys[..i + 1]) == LoadArg(c, loads, prev, polys[i]);
        var r := ParseAndFix(loads, polys[i]);
        if r.Halted? && r.halt.Refused? {
          LoadArgsStops(c, loads, polys, i + 1);
          return Some(r.halt.error);
        }
        assert LoadArg(c, loads, prev, polys[i]) == Loaded(prev.added + [AsOption(r)], None);
        inputPoly := inputPoly + [AsOption(r)];
        i := i + 1;
      }
      assert polys[..i] == polys;
      return None;
    }

    /** The second loop of `load_input_poly`: the lines of the polynomial files. */
    method LoadPolyLines(lines: seq<string>, loads: string -> Option<Json>) returns (failure: Option<PolyError>)
      modifies this
      ensures inputPoly == old(inputPoly) + LoadLines(Config(), loads, lines).added
      ensures failure == LoadLines(Config(), loads, lines).failure
    {
      ghost var c := Config();
      ghost var base := inputPoly;
      var k := 0;
      while k < |lines|
        invariant 0 <= k <= |lines|
        invariant LoadLines(c, loads, lines[..k]).failure.None?
        invariant inputPoly == base + LoadLines(c, loads, lines[..k]).added
      {
        ghost var prev := LoadLines(c, loads, lines[..k]);
        assert lines[..k + 1][..k] == lines[..k];
        assert LoadLines(c, loads, lines[..k + 1]) == LoadLine(c, loads, prev, lines[k]);
        var f := LoadPolyLine(base, prev, lines[k], loads);
        if f.Some? {
          LoadLinesStops(c, loads, lines, k + 1);
          return f;
        }
        k := k + 1;
      }
      assert lines[..k] == lines;
      return None;
    }

    /** One line of a polynomial file: strip it, skip blanks and comments, load the rest. */
    method LoadPolyLine(ghost base: seq<Option<Json>>, ghost prev: Loaded, raw: string, loads: string -> Option<Json>)
      returns (failure: Option<PolyError>)
      requires prev.failure.None? && inputPoly == base + prev.added
      modifies this
      ensures failure == LoadLine(Config(), loads, prev, raw).failure
      ensures inputPoly == base + LoadLine(Config(), loads, prev, raw).added
    {
      var line := Strip(raw);
      if KeepLine(line) {
        var r := ParseAndFix(loads, line);
        if r.Halted? && r.halt.Refused? {
          return Some(r.halt.error);
        }
        if r.Keep? {
          inputPoly := inputPoly + [Some(r.value)];
        }
      }
      return None;
    }
  }

  /** Appending the arguments' results and then the lines' results appends what loading appends. */
  lemma LoadOfThen(c: PolyConfig, loads: string -> Option<Json>, polys: seq<string>, lines: seq<string>,
                   before: seq<Option<Json>>, mid: seq<Option<Json>>, after: seq<Option<Json>>)
    requires LoadArgs(c, loads, polys).failure.None?
    requires mid == before + LoadArgs(c, loads, polys).added
    requires after == mid + LoadLines(c, loads, lines).added
    ensures after == before + LoadOf(c, loads, polys, lines).added
    ensures LoadOf(c, loads, polys, lines).failure == LoadLines(c, loads, lines).failure
  {
    AppendTwice(before, LoadArgs(c, loads, polys).added, LoadLines(c, loads, lines).added, mid, after);
  }

  /** Appending two pieces one after the other appends their concatenation. */
  lemma AppendTwice<T>(before: seq<T>, a: seq<T>, l: seq<T>, mid: seq<T>, after: seq<T>)
    requires mid == before + a && after == mid + l
    ensures after == before + (a + l)
  {
  }

  /** One more element kept by the pass. */
  lemma SweepStep(xs: seq<Json>, f: Json -> Outcome<Json>, j: nat, done: seq<Json>)
    requires j < |xs| && Sweep(xs[..j], f) == Keep(done) && f(xs[j]).Keep?
    ensures Sweep(xs[..j + 1], f) == Keep(done + [f(xs[j]).value])
  {
    assert xs[..j + 1][..j] == xs[..j];
  }

  /** The check halts at a term, and with it the whole polynomial. */
  lemma HaltAtTerm(c: PolyConfig, ts: seq<Json>, i: nat)
    requires i < |ts| && FixTerm(c, ts[i]).Halted? && Sweep(ts[..i], TermFixer(c)).Keep?
    ensures Sweep(ts, TermFixer(c)) == Halted(FixTerm(c, ts[i]).halt)
  {
    assert ts[..i + 1][..i] == ts[..i];
    SweepPrefixHalted(ts, TermFixer(c), i + 1);
  }

  /** The check of a term halts at a variable. */
  lemma HaltAtVar(c: PolyConfig, items: seq<Json>, j: nat)
    requires j < |items| && Sweep(items[..j], VarFixer(c)).Keep?
    requires FixVar(c, items[j]).Halted?
    ensures FixTerm(c, JList(items)) == Halted(FixVar(c, items[j]).halt)
  {
    assert items[..j + 1][..j] == items[..j];
    SweepPrefixHalted(items, VarFixer(c), j + 1);
  }
}

=== FILE: sampler.dfy ===
/**
 * The bounded sampler `randint(n)` of the biased byte generator: a rejection
 * sampler over the C library's `rand()`.
 *
 * `rand()` is modelled as a finite tape of draws, each in [0, RAND_MAX]; a
 * generator object (`Rng`) walks along it. The rejection loop of `randint`
 * has no bound in C; here it stops with `Exhausted` when the tape runs out.
 */
module Sampler {
  import opened Wrappers
  import opened CArith

  /** Every value `rand()` returns lies in [0, RAND_MAX]. */
  predicate IsDrawSeq(randMax: nat, draws: seq<int>) {
    forall j :: 0 <= j < |draws| ==> 0 <= draws[j] <= randMax
  }

  /** Why a call of `randint` gives no value. */
  datatype Fault =
    | DivisionByZero   // `RAND_MAX / n` with `n == 0` traps
    | AssertionFailed  // `assert (end > 0L)` fails and the process aborts
    | Exhausted        // the modelled tape of draws ran out

  /** One call of `randint`: the value it returns (or why it does not) and the number of draws of `rand()` it consumed. */
  datatype Sample = Drawn(value: int, used: nat) | Failed(fault: Fault, used: nat)

  /** `end = (RAND_MAX / n) * n`: the draws below it are accepted. */
  function Limit(randMax: nat, n: int): int
    requires n != 0
  {
    CDiv(randMax, n) * n
  }

  /**
   * The loop `while ((r = rand()) >= end);` followed by `return r % n;`, run
   * on the draws still to come. (`r` is never negative, so C's `%` is
   * Dafny's here.)
   */
  function Reject(end: int, n: int, draws: seq<int>): (s: Sample)
    requires n > 0
    ensures s.used <= |draws|
    ensures s.Drawn? ==> 1 <= s.used && draws[s.used - 1] < end && s.value == draws[s.used - 1] % n
    ensures s.Drawn? ==> forall j :: 0 <= j < s.used - 1 ==> draws[j] >= end
    ensures s.Failed? ==> s.fault == Exhausted && s.used == |draws|
    ensures s.Failed? ==> forall j :: 0 <= j < |draws| ==> draws[j] >= end
    decreases |draws|
  {
    if |draws| == 0 then Failed(Exhausted, 0)
    else if draws[0] < end then Drawn(draws[0] % n, 1)
    else
      match Reject(end, n, draws[1..])
      case Drawn(v, k) => Drawn(v, k + 1)
      case Failed(f, k) => Failed(f, k + 1)
  }

  /** What `randint(n)` does when `rand()` would return `draws`, in order. */
  function RandIntOf(randMax: nat, n: int, draws: seq<int>): (s: Sample)
    ensures s.used <= |draws|
    ensures s.Drawn? && IsDrawSeq(randMax, draws) ==> 0 <= s.value < n
  {
    if n - 1 == randMax then
      if |draws| == 0 then Failed(Exhausted, 0) else Drawn(draws[0], 1)
    else if n == 0 then Failed(DivisionByZero, 0)
    else if CDiv(randMax, n) <= 0 then Failed(AssertionFailed, 0)
    else Reject(Limit(randMax, n), n, draws)
  }

  /** When `n - 1 == RAND_MAX`, one raw draw is returned unchanged. */
  lemma FullRangeIsRawDraw(randMax: nat, draws: seq<int>)
    requires IsDrawSeq(randMax, draws) && |draws| > 0
    ensures RandIntOf(randMax, randMax + 1, draws) == Drawn(draws[0], 1)
  {
  }

  /** The assertion `end > 0` (before `end *= n`) holds exactly when `1 <= n <= RAND_MAX`. */
  lemma AssertionHoldsIff(randMax: nat, n: int)
    requires n != 0
    ensures CDiv(randMax, n) > 0 <==> 1 <= n <= randMax
  {
    if n > 0 {
      assert randMax == n * (randMax / n) + randMax % n;
      MulSign(n, randMax / n);
    }
  }

  /**
   * For an admissible `n`, `end` is a positive multiple of `n`, the largest
   * one not above `RAND_MAX`; between 1 and `n` of the `RAND_MAX + 1`
   * possible draws are rejected, never more than are accepted (each draw is
   * accepted with probability at least one half).
   */
  lemma LimitIsLargestMultiple(randMax: nat, n: int)
    requires 1 <= n <= randMax
    ensures 0 < Limit(randMax, n) <= randMax
    ensures Limit(randMax, n) % n == 0 && Limit(randMax, n) / n == randMax / n
    ensures randMax < Limit(randMax, n) + n
    ensures 1 <= randMax + 1 - Limit(randMax, n) <= n
    ensures randMax + 1 - Limit(randMax, n) <= Limit(randMax, n)
  {
    AssertionHoldsIff(randMax, n);
    var q := randMax / n;
    assert Limit(randMax, n) == q * n == n * q;
    assert randMax == n * q + randMax % n;
    EuclidUnique(q * n, n, q, 0);
  }

  /** Each fault arises exactly in the case the C code produces it. */
  lemma RandIntFaults(randMax: nat, n: int, draws: seq<int>)
    ensures RandIntOf(randMax, n, draws).Failed? && RandIntOf(randMax, n, draws).fault == DivisionByZero
            <==> n == 0
    ensures RandIntOf(randMax, n, draws).Failed? && RandIntOf(randMax, n, draws).fault == AssertionFailed
            <==> n < 0 || n > randMax + 1
    ensures RandIntOf(randMax, n, draws).Failed? && RandIntOf(randMax, n, draws).fault == Exhausted
            <==> (n == randMax + 1 && |draws| == 0)
                 || (1 <= n <= randMax && forall j :: 0 <= j < |draws| ==> draws[j] >= Limit(randMax, n))
  {
    if n != 0 && n - 1 != randMax {
      AssertionHoldsIff(randMax, n);
      if 1 <= n <= randMax {
      }
    }
  }

  /**
   * A value is only ever produced from an accepted draw: every earlier draw
   * was at least `end`, the accepted one lies in [0, end), and the result is
   * it modulo `n`.
   */
  lemma AcceptedDraw(randMax: nat, n: int, draws: seq<int>)
    requires IsDrawSeq(randMax, draws) && 1 <= n <= randMax
    requires RandIntOf(randMax, n, draws).Drawn?
    ensures var s := RandIntOf(randMax, n, draws);
      && 0 <= draws[s.used - 1] < Limit(randMax, n)
      && s.value == draws[s.used - 1] % n
      && forall j :: 0 <= j < s.used - 1 ==> Limit(randMax, n) <= draws[j] <= randMax
  {
    AssertionHoldsIff(randMax, n);
  }

  /** The accepted draws in [0, end) that `r % n` maps to `k`. */
  ghost function Preimage(end: int, n: int, k: int): set<int>
    requires n > 0
  {
    set r | 0 <= r < end && r % n == k
  }

  /** No modulo bias: every result in [0, n) has exactly `end / n` accepted draws mapping to it. */
  lemma NoModuloBias(randMax: nat, n: int, k: int)
    requires 1 <= n <= randMax && 0 <= k < n
    ensures |Preimage(Limit(randMax, n), n, k)| == Limit(randMax, n) / n
  {
    LimitIsLargestMultiple(randMax, n);
    CountResidues(randMax / n, n, k);
  }

  lemma {:induction false} CountResidues(q: nat, n: int, k: int)
    requires n > 0 && 0 <= k < n
    ensures |Preimage(q * n, n, k)| == q
  {
    if q > 0 {
      CountResidues(q - 1, n, k);
      var lo := (q - 1) * n;
      assert q * n == lo + n;
      EuclidUnique(lo + k, n, q - 1, k);
      assert Preimage(q * n, n, k) == Preimage(lo, n, k) + {lo + k} by {
        forall r | r in Preimage(q * n, n, k) ensures r in Preimage(lo, n, k) || r == lo + k {
          if r >= lo { EuclidUnique(r, n, q - 1, r - lo); }
        }
      }
      assert lo + k !in Preimage(lo, n, k);
    }
  }

  /**
   * The C library's hidden `rand()` state, made explicit: the draws it will
   * return (`tape`) and how many have been taken (`pos`).
   */
  class Rng {
    const randMax: nat
    const tape: seq<int>
    var pos: nat

    ghost predicate Valid()
      reads this
    {
      pos <= |tape| && IsDrawSeq(randMax, tape)
    }

    /** The draws `rand()` has yet to return. */
    function Remaining(): (r: seq<int>)
      reads this
      requires Valid()
      ensures IsDrawSeq(randMax, r)
    {
      tape[pos..]
    }

    /** Seeding (`srand`) fixes the whole sequence of draws. */
    constructor (randMax: nat, tape: seq<int>)
      requires IsDrawSeq(randMax, tape)
      ensures Valid() && this.randMax == randMax && this.tape == tape && pos == 0
    {
      this.randMax := randMax;
      this.tape := tape;
      pos := 0;
    }

    /** `rand()`: the next draw, or `None` once the tape is used up. */
    method Rand() returns (r: Option<int>)
      requires Valid()
      modifies this
      ensures Valid()
      ensures old(pos) < |tape| ==> r == Some(tape[old(pos)]) && pos == old(pos) + 1
      ensures old(pos) == |tape| ==> r == None && pos == old(pos)
    {
      if pos == |tape| {
        return None;
      }
      r := Some(tape[pos]);
      pos := pos + 1;
    }

    /** `randint(n)`, consuming exactly the draws its specification uses. */
    method RandInt(n: int) returns (s: Sample)
      requires Valid()
      modifies this
      ensures Valid()
      ensures s == RandIntOf(randMax, n, old(Remaining()))
      ensures pos == old(pos) + s.used
    {
      if n - 1 == randMax {
        var r := Rand();
        if r.None? {
          return Failed(Exhausted, 0);
        }
        return Drawn(r.value, 1);
      }
      if n == 0 {
        return Failed(DivisionByZero, 0);
      }
      var end := CDiv(randMax, n);
      if end <= 0 {
        return Failed(AssertionFailed, 0);
      }
      end := end * n;
      s := RejectLoop(end, n);
    }

    /** The loop `while ((r = rand()) >= end);` and its result `r % n`. */
    method RejectLoop(end: int, n: int) returns (s: Sample)
      requires Valid() && n > 0
      modifies this
      ensures Valid()
      ensures s == Reject(end, n, old(Remaining()))
      ensures pos == old(pos) + s.used
    {
      ghost var draws := Remaining();
      var start := pos;
      while true
        invariant Valid() && start <= pos && draws == tape[start..]
        invariant Reject(end, n, draws) == Shift(Reject(end, n, tape[pos..]), pos - start)
        decreases |tape| - pos
      {
        ghost var before := tape[pos..];
        var r := Rand();
        if r.None? {
          return Failed(Exhausted, pos - start);
        }
        assert before == [r.value] + tape[pos..];
        if r.value < end {
          return Drawn(r.value % n, pos - start);
        }
        RejectStep(end, n, before);
      }
    }
  }

  /** A rejected first draw adds one to the draws used and changes nothing else. */
  lemma RejectStep(end: int, n: int, draws: seq<int>)
    requires n > 0 && |draws| > 0 && draws[0] >= end
    ensures Reject(end, n, draws) == Shift(Reject(end, n, draws[1..]), 1)
  {
  }

  /** A sample taken after `k` draws had already been rejected. */
  function Shift(s: Sample, k: nat): (t: Sample)
    ensures t.used == s.used + k
  {
    match s
    case Drawn(v, u) => Drawn(v, u + k)
    case Failed(f, u) => Failed(f, u + k)
  }
}

=== FILE: size_args.dfy ===
/**
 * Command-line argument helpers of the polynomial verifier's `App`:
 * `defset`, the unit-multiplier table `get_multiplier` and the size parser
 * `process_size` (sizes such as `3M`, `512k`, `10Mi`).
 *
 * Strings are Python 2 byte strings: `lower()` and `isdigit()` look at
 * ASCII only.
 */
module SizeArgs {
  import opened Wrappers

  /** `defset(val, default)`: the value when it is given, else the default. */
  function Defset<T>(val: Option<T>, default: Option<T>): (r: Option<T>)
    ensures val.Some? ==> r == val
    ensures val.None? ==> r == default
  {
    if val.Some? then val else default
  }

  /** Why a size is refused: the three `ValueError`s the parser can raise. */
  datatype SizeError =
    | UnknownType              // neither None, an integer nor a string
    | UnknownSizeSpecifier     // the string does not match the size pattern
    | UnknownMultiplier(c: char)

  predicate IsDigit(c: char) {
    '0' <= c <= '9'
  }

  predicate IsHexDigit(c: char) {
    IsDigit(c) || 'a' <= c <= 'f' || 'A' <= c <= 'F'
  }

  /** `str.isdigit()`: non-empty and every character a digit. */
  predicate IsDigits(s: string) {
    |s| > 0 && forall j :: 0 <= j < |s| ==> IsDigit(s[j])
  }

  predicate AllHex(s: string) {
    forall j :: 0 <= j < |s| ==> IsHexDigit(s[j])
  }

  /** ASCII `lower()` of one character. */
  function Lower(c: char): (l: char)
    ensures 'A' <= c <= 'Z' ==> l as int == c as int + 32
    ensures !('A' <= c <= 'Z') ==> l == c
  {
    if 'A' <= c <= 'Z' then (c as int + 32) as char else c
  }

  function Pow(b: nat, e: nat): (p: nat)
    ensures b >= 1 ==> p >= 1
  {
    if e == 0 then 1 else b * Pow(b, e - 1)
  }

  /** The power a unit letter stands for: k, m, g, t in either case. */
  function UnitRank(c: char): (r: Option<nat>)
    ensures r.Some? ==> 1 <= r.value <= 4
  {
    match Lower(c)
    case 'k' => Some(1)
    case 'm' => Some(2)
    case 'g' => Some(3)
    case 't' => Some(4)
    case _ => None
  }

  /** The characters of the pattern's class `[kKmMgGtT]`. */
  predicate IsUnitLetter(c: char) {
    c == 'k' || c == 'K' || c == 'm' || c == 'M' || c == 'g' || c == 'G' || c == 't' || c == 'T'
  }

  /** The pattern's unit letters are exactly the characters with a rank. */
  lemma UnitLetterHasRank(c: char)
    ensures IsUnitLetter(c) <==> UnitRank(c).Some?
  {
  }

  /**
   * `get_multiplier(char, is_ib)`: 1 for no unit; otherwise the first
   * character alone, lower-cased, selects a power of 1000 (or of 1024 when
   * `is_ib`).
   */
  function GetMultiplier(unit: Option<string>, isIb: bool): (r: Result<nat, SizeError>)
    ensures r.Ok? ==> r.value >= 1
    // No unit, and only no unit, gives 1.
    ensures r == Ok(1) <==> unit.None? || |unit.value| == 0
  {
    if unit.None? || |unit.value| == 0 then Ok(1)
    else
      var c := Lower(unit.value[0]);
      if c == 'k' then Ok(if isIb then 1024 else 1000)
      else if c == 'm' then Ok(if isIb then 1024 * 1024 else 1000 * 1000)
      else if c == 'g' then Ok(if isIb then 1024 * 1024 * 1024 else 1000 * 1000 * 1000)
      else if c == 't' then Ok(if isIb then 1024 * 1024 * 1024 * 1024 else 1000 * 1000 * 1000 * 1000)
      else Err(UnknownMultiplier(c))
  }

  /**
   * The table is the power series of its base: a unit letter of rank `k`
   * gives `1000^k`, or `1024^k` when binary; any other first character is
   * refused, and no other character of the unit is looked at.
   */
  lemma MultiplierIsPower(unit: string, isIb: bool)
    requires |unit| > 0
    ensures var base := if isIb then 1024 else 1000;
      match UnitRank(unit[0])
      case Some(k) => GetMultiplier(Some(unit), isIb) == Ok(Pow(base, k))
      case None => GetMultiplier(Some(unit), isIb) == Err(UnknownMultiplier(Lower(unit[0])))
    ensures GetMultiplier(Some(unit), isIb) == GetMultiplier(Some([unit[0]]), isIb)
  {
    assert Pow(1000, 4) == 1000 * 1000 * 1000 * 1000 by {
      assert Pow(1000, 2) == 1000 * 1000 by {
        assert Pow(1000, 1) == 1000;
      }
      assert Pow(1000, 3) == 1000 * Pow(1000, 2);
    }
    assert Pow(1024, 4) == 1024 * 1024 * 1024 * 1024 by {
      assert Pow(1024, 2) == 1024 * 1024 by {
        assert Pow(1024, 1) == 1024;
      }
      assert Pow(1024, 3) == 1024 * Pow(1024, 2);
    }
  }

  /** The multiplier does not depend on the case of the unit letter. */
  lemma MultiplierIgnoresCase(c: char, isIb: bool)
    ensures GetMultiplier(Some([c]), isIb) == GetMultiplier(Some([Lower(c)]), isIb)
  {
  }

  /** The value of a string of decimal digits, as `int()` reads it. */
  function DecimalValue(ds: string): (v: nat)
    requires forall j :: 0 <= j < |ds| ==> IsDigit(ds[j])
  {
    if |ds| == 0 then 0
    else
      var d := ds[|ds| - 1];
      assert IsDigit(d);
      DecimalValue(ds[..|ds| - 1]) * 10 + (d as int - '0' as int)
  }

  /**
   * The mantissa part of `^([0-9a-fA-F]+(.[0-9]+)?)...$`: hex digits,
   * optionally followed by one character other than a newline and at least
   * one decimal digit. `h` is where the hex digits end.
   */
  predicate IsMantissaAt(m: string, h: nat) {
    && 1 <= h <= |m|
    && AllHex(m[..h])
    && (h == |m| || (h + 2 <= |m| && m[h] != '\n' && forall j :: h + 1 <= j < |m| ==> IsDigit(m[j])))
  }

  /** The length of the longest run of hex digits at the start of `m`. */
  function HexPrefix(m: string): (h: nat)
    ensures h <= |m| && AllHex(m[..h])
    ensures h < |m| ==> !IsHexDigit(m[h])
  {
    if |m| == 0 || !IsHexDigit(m[0]) then 0
    else
      var t := HexPrefix(m[1..]);
      assert m[..t + 1] == [m[0]] + m[1..][..t];
      t + 1
  }

  /** Whether `m` is a mantissa, decided with the longest run of hex digits only. */
  predicate MatchMantissa(m: string) {
    IsMantissaAt(m, HexPrefix(m))
  }

  /**
   * Backtracking cannot help: a mantissa split at any point is also split
   * at the end of the longest hex run, since the character after the hex
   * run is not a digit and so cannot lie in the digit tail.
   */
  lemma MatchMantissaExact(m: string, h: nat)
    requires IsMantissaAt(m, h)
    ensures MatchMantissa(m)
  {
    var p := HexPrefix(m);
    if p < h || (p > h && p < |m|) {
      assert false;
    }
  }

  /** What the size pattern captures: group 1, group 3, and whether group 4 matched. */
  datatype SizeMatch = SizeMatch(mantissa: string, unit: Option<string>, binary: bool)

  /** The unit text of a match (group 3, empty when it did not match). */
  function UnitText(r: SizeMatch): string {
    if r.unit.Some? then r.unit.value else ""
  }

  /**
   * The pattern accepts `s` with captures `r`: `s` is the mantissa, the
   * unit (a unit letter, or a unit letter and `i`/`I` exactly when binary)
   * and `nl`, which `$` allows to be one final newline.
   */
  ghost predicate Accepts(s: string, r: SizeMatch, nl: string) {
    && (nl == "" || nl == "\n")
    && s == r.mantissa + UnitText(r) + nl
    && (exists h: nat :: IsMantissaAt(r.mantissa, h))
    && match r.unit
       case None => !r.binary
       case Some(u) =>
         (|u| == 1 && IsUnitLetter(u[0]) && !r.binary)
         || (|u| == 2 && IsUnitLetter(u[0]) && (u[1] == 'i' || u[1] == 'I') && r.binary)
  }

  /**
   * `re.match` of the size pattern, computed: drop one final newline, take
   * the unit off the end (no mantissa ends in a unit letter or `i`), and
   * check what is left is a mantissa.
   */
  function MatchSize(s: string): (r: Option<SizeMatch>)
    ensures r.Some? ==> MatchMantissa(r.value.mantissa) && DropNewline(s) == r.value.mantissa + UnitText(r.value)
  {
    var t := DropNewline(s);
    var n := UnitLength(t);
    var m := t[..|t| - n];
    if MatchMantissa(m) then Some(SizeMatch(m, if n == 0 then None else Some(t[|t| - n..]), n == 2))
    else None
  }

  /** `s` without one final newline, which `$` lets the pattern ignore. */
  function DropNewline(s: string): (t: string)
    ensures t == s || (|s| > 0 && s[|s| - 1] == '\n' && t == s[..|s| - 1])
  {
    if |s| > 0 && s[|s| - 1] == '\n' then s[..|s| - 1] else s
  }

  /** How many characters at the end of `t` form the unit (group 3). */
  function UnitLength(t: string): (n: nat)
    ensures n <= |t| && n <= 2
    ensures n >= 1 ==> IsUnitLetter(t[|t| - n])
    ensures n == 2 ==> t[|t| - 1] == 'i' || t[|t| - 1] == 'I'
  {
    if |t| >= 2 && (t[|t| - 1] == 'i' || t[|t| - 1] == 'I') && IsUnitLetter(t[|t| - 2]) then 2
    else if |t| >= 1 && IsUnitLetter(t[|t| - 1]) then 1
    else 0
  }

  /** Every match found is one the pattern accepts. */
  lemma MatchSizeSound(s: string)
    requires MatchSize(s).Some?
    ensures Accepts(s, MatchSize(s).value, if |s| > 0 && s[|s| - 1] == '\n' then "\n" else "")
  {
    var r := MatchSize(s).value;
    var nl := if |s| > 0 && s[|s| - 1] == '\n' then "\n" else "";
    var t := DropNewline(s);
    var n := UnitLength(t);
    NewlineSplit(s);
    assert t == r.mantissa + UnitText(r) by {
      assert t == t[..|t| - n] + t[|t| - n..];
    }
    UnitTail(t);
    assert IsMantissaAt(r.mantissa, HexPrefix(r.mantissa));
  }

  /** The unit taken off the end is a unit letter, followed by `i` or `I` exactly when it has two characters. */
  lemma UnitTail(t: string)
    ensures var n := UnitLength(t);
      var u := t[|t| - n..];
      && |u| == n
      && (n >= 1 ==> IsUnitLetter(u[0]))
      && (n == 2 ==> u[1] == 'i' || u[1] == 'I')
  {
    var n := UnitLength(t);
    var u := t[|t| - n..];
    if n == 2 {
      assert u[0] == t[|t| - 2] && u[1] == t[|t| - 1];
    } else if n == 1 {
      assert u[0] == t[|t| - 1];
    }
  }

  /** No character of a mantissa is a unit letter, `i`, `I` or a newline at its end. */
  lemma MantissaEnd(m: string, h: nat)
    requires IsMantissaAt(m, h)
    ensures |m| > 0
    ensures !IsUnitLetter(m[|m| - 1]) && m[|m| - 1] != 'i' && m[|m| - 1] != 'I' && m[|m| - 1] != '\n'
  {
    if h == |m| {
      assert IsHexDigit(m[..h][h - 1]);
    }
  }

  /**
   * The pattern's captures are unique and are the ones computed: whatever
   * way the pattern accepts `s`, `MatchSize` finds the same groups.
   */
  lemma MatchSizeComplete(s: string, r: SizeMatch, nl: string)
    requires Accepts(s, r, nl)
    ensures MatchSize(s) == Some(r)
  {
    var h :| IsMantissaAt(r.mantissa, h);
    MantissaEnd(r.mantissa, h);
    MatchMantissaExact(r.mantissa, h);
    var u := UnitText(r);
    var t := r.mantissa + u;
    assert t[|t| - 1] != '\n' by {
      if |u| > 0 {
        assert t[|t| - 1] == u[|u| - 1];
      } else {
        assert t == r.mantissa;
      }
    }
    DropNewlineOf(t, nl);
    SplitUnit(r.mantissa, u);
    assert r.unit == if |u| == 0 then None else Some(u);
  }

  /** A string is what `DropNewline` leaves followed by the newline it dropped, if any. */
  lemma NewlineSplit(s: string)
    ensures s == DropNewline(s) + (if |s| > 0 && s[|s| - 1] == '\n' then "\n" else "")
  {
    if |s| > 0 && s[|s| - 1] == '\n' {
      assert s == s[..|s| - 1] + [s[|s| - 1]];
    }
  }

  /** The one final newline the pattern allows is the one dropped. */
  lemma DropNewlineOf(t: string, nl: string)
    requires |t| > 0 && t[|t| - 1] != '\n' && (nl == "" || nl == "\n")
    ensures DropNewline(t + nl) == t
  {
    if nl == "\n" {
      assert (t + nl)[..|t|] == t;
    } else {
      assert t + nl == t;
    }
  }

  /** A mantissa followed by a unit splits back into the two at the unit's length. */
  lemma SplitUnit(m: string, u: string)
    requires |m| > 0 && !IsUnitLetter(m[|m| - 1]) && m[|m| - 1] != 'i' && m[|m| - 1] != 'I'
    requires |u| == 0 || (|u| <= 2 && IsUnitLetter(u[0]))
    requires |u| == 2 ==> u[1] == 'i' || u[1] == 'I'
    ensures var t := m + u; UnitLength(t) == |u| && t[..|t| - |u|] == m && t[|t| - |u|..] == u
  {
    var t := m + u;
    if |u| == 2 {
      assert t[|t| - 2] == u[0] && t[|t| - 1] == u[1];
      assert t[|t| - 2..] == u;
    } else if |u| == 1 {
      assert t[|t| - 2] == m[|m| - 1] && t[|t| - 1] == u[0];
      assert t[|t| - 1..] == u;
    } else {
      assert t == m;
    }
  }

  /** The argument as the caller passes it. */
  datatype SizeParam =
    | NoParam                 // None
    | IntParam(n: int)        // an `int` or `long` (a `bool` is one too)
    | StrParam(s: string)     // a `str`
    | OtherParam              // anything else

  /**
   * What `process_size` returns: None, an exact integer, or
   * `int(float(mantissa) * multiplier)` for a mantissa that is not a plain
   * decimal integer, or whose product is too large for a double to hold
   * exactly. That last form is not evaluated here: it stands for the value
   * or for the `ValueError` that `float()` raises. The pattern's `.` takes
   * any character, so a mantissa with a hex letter or a separator other than
   * `.` converts only in the exponent forms `<digits>e<digits>` and
   * `<digits>e+<digits>` or `<digits>e-<digits>` (`e` or `E`; `1e+5k` is
   * 100000000), and `float()` raises for every other such mantissa.
   */
  datatype Size = NoSize | Count(n: int) | FloatCount(mantissa: string, multiplier: nat)

  /** Every integer up to 2^53 is exactly a double, and so is such a product. */
  const MaxExactFloat: nat := 0x20_0000_0000_0000

  /** `process_size(size_param)`. */
  function ProcessSize(p: SizeParam): (r: Result<Size, SizeError>)
    ensures r.Ok? && r.value.Count? && p.StrParam? ==> r.value.n >= 0
  {
    match p
    case NoParam => Ok(NoSize)
    case IntParam(n) => Ok(Count(n))
    case OtherParam => Err(UnknownType)
    case StrParam(s) =>
      if |s| == 0 then Ok(NoSize)
      else if IsDigits(s) then Ok(Count(DecimalValue(s)))
      else
        match MatchSize(s)
        case None => Err(UnknownSizeSpecifier)
        case Some(m) => SizeOfMatch(m)
  }

  /** The tail of `process_size`: the mantissa scaled by the unit's multiplier. */
  function SizeOfMatch(m: SizeMatch): (r: Result<Size, SizeError>)
    ensures r.Ok? && r.value.Count? ==> r.value.n >= 0
  {
    match GetMultiplier(m.unit, m.binary)
    case Err(e) => Err(e)
    case Ok(k) =>
      if IsDigits(m.mantissa) && DecimalValue(m.mantissa) * k <= MaxExactFloat
      then Ok(Count(DecimalValue(m.mantissa) * k))
      else Ok(FloatCount(m.mantissa, k))
  }

  /** A unit the pattern captures starts with a unit letter, so its multiplier is known. */
  lemma MatchedUnitKnown(s: string)
    requires MatchSize(s).Some?
    ensures GetMultiplier(MatchSize(s).value.unit, MatchSize(s).value.binary).Ok?
  {
    var t := DropNewline(s);
    var n := UnitLength(t);
    if n > 0 {
      assert t[|t| - n..][0] == t[|t| - n];
    }
  }

  /**
   * The unit of a match always starts with a unit letter, so the
   * multiplier lookup behind `process_size` never fails.
   */
  lemma NeverUnknownMultiplier(p: SizeParam)
    ensures !(ProcessSize(p).Err? && ProcessSize(p).error.UnknownMultiplier?)
  {
    if p.StrParam? && |p.s| > 0 && !IsDigits(p.s) && MatchSize(p.s).Some? {
      MatchedUnitKnown(p.s);
    }
  }

  /**
   * The simple cases: None and the empty string give None, an integer is
   * returned unchanged, another type is refused, and an all-digit string
   * gives its decimal value.
   */
  lemma ProcessSizePlain(p: SizeParam)
    ensures p.NoParam? || p == StrParam("") ==> ProcessSize(p) == Ok(NoSize)
    ensures p.IntParam? ==> ProcessSize(p) == Ok(Count(p.n))
    ensures p.OtherParam? ==> ProcessSize(p) == Err(UnknownType)
    ensures p.StrParam? && IsDigits(p.s) ==> ProcessSize(p) == Ok(Count(DecimalValue(p.s)))
  {
  }

  /**
   * A string the pattern does not accept is refused, and a refused string
   * (other than the plain cases) is one the pattern does not accept.
   */
  lemma RefusedIffNoMatch(s: string, r: SizeMatch, nl: string)
    requires |s| > 0 && !IsDigits(s)
    ensures ProcessSize(StrParam(s)) == Err(UnknownSizeSpecifier) ==> !Accepts(s, r, nl)
    ensures MatchSize(s).None? ==> ProcessSize(StrParam(s)) == Err(UnknownSizeSpecifier)
  {
    if Accepts(s, r, nl) {
      MatchSizeComplete(s, r, nl);
      NeverUnknownMultiplier(StrParam(s));
    }
  }

  /**
   * A decimal mantissa with a unit: `ds` followed by a unit letter, and by
   * the marker `i` or `I` for the binary variant, is `ds * multiplier`
   * while the product is exact in a double.
   */
  lemma ProcessSizeWithUnit(ds: string, letter: char, marker: char, binary: bool)
    requires IsDigits(ds) && IsUnitLetter(letter) && (marker == 'i' || marker == 'I')
    ensures var unit := if binary then [letter, marker] else [letter];
      var k := Pow(if binary then 1024 else 1000, UnitRank(letter).value);
      var r := ProcessSize(StrParam(ds + unit));
      && (DecimalValue(ds) * k <= MaxExactFloat ==> r == Ok(Count(DecimalValue(ds) * k)))
      && (DecimalValue(ds) * k > MaxExactFloat ==> r == Ok(FloatCount(ds, k)))
  {
    UnitLetterHasRank(letter);
    var unit := if binary then [letter, marker] else [letter];
    DigitsWithUnit(ds, unit, binary);
    MultiplierIsPower(unit, binary);
    var k := Pow(if binary then 1024 else 1000, UnitRank(letter).value);
    assert GetMultiplier(Some(unit), binary) == Ok(k);
    assert ProcessSize(StrParam(ds + unit)) == SizeOfMatch(SizeMatch(ds, Some(unit), binary));
  }

  /** Digits followed by a unit are not all digits, and the pattern splits them back apart. */
  lemma DigitsWithUnit(ds: string, unit: string, binary: bool)
    requires IsDigits(ds) && 1 <= |unit| <= 2 && IsUnitLetter(unit[0])
    requires binary <==> |unit| == 2
    requires |unit| == 2 ==> unit[1] == 'i' || unit[1] == 'I'
    ensures !IsDigits(ds + unit)
    ensures MatchSize(ds + unit) == Some(SizeMatch(ds, Some(unit), binary))
  {
    var s := ds + unit;
    var r := SizeMatch(ds, Some(unit), binary);
    assert IsMantissaAt(ds, |ds|) by {
      assert ds[..|ds|] == ds;
    }
    assert s == ds + UnitText(r) + "";
    MatchSizeComplete(s, r, "");
    assert s[|s| - 1] == unit[|unit| - 1];
  }
}

=== FILE: stream.dfy ===
/**
 * One cycle of the biased byte generator's `for(;;)` loop: fill a buffer of
 * BUFSIZE bytes with `randint(256)` and, at every bias-check index, clear
 * one bit when the bias trial succeeds. Writing the buffer to standard
 * output and the endless repetition are not modelled.
 */
module BiasedStream {
  import opened Wrappers
  import opened CArith
  import opened Sampler

  /** The `#define` constants other than BUFSIZE, which is the buffer's length. */
  datatype Config = Config(zeroChance: int, blockLen: int, biasBit: int)

  /** The shipped values: ZERO_CHANCE 1, BLOCKLEN 16, BIASBIT 0. */
  const Defaults := Config(1, 16, 0)

  /** `BITPOS = BIASBIT / 8`, the byte of each block that holds the biased bit. */
  function BitPos(c: Config): int {
    CDiv(c.biasBit, 8)
  }

  /** `(i - BITPOS) % BLOCKLEN == 0` in C's arithmetic. */
  predicate IsCheckPos(c: Config, i: int)
    requires c.blockLen != 0
  {
    CRem(i - BitPos(c), c.blockLen) == 0
  }

  /** The bias-check indices are those where BLOCKLEN divides `i - BITPOS`. */
  lemma CheckPosIffDivides(c: Config, i: int)
    requires c.blockLen != 0
    ensures IsCheckPos(c, i) <==> (i - BitPos(c)) % c.blockLen == 0
  {
    CRemZeroIffDivides(i - BitPos(c), c.blockLen);
  }

  /** `7 - (BIASBIT % 8)`: the index, from the least significant bit, of the bit to clear. */
  function BiasBitIndex(c: Config): (k: int)
    ensures 0 <= k <= 14
    ensures c.biasBit >= 0 ==> 0 <= k <= 7
  {
    7 - CRem(c.biasBit, 8)
  }

  /**
   * The bits of a byte that `&= ~(1 << BiasBitIndex)` clears. A negative
   * BIASBIT that is not a multiple of 8 gives an index from 8 to 14, beyond
   * the byte; storing the result back into the `char` keeps its low eight
   * bits, so no bit of the byte is cleared.
   */
  function BiasMask(c: Config): (m: bv8)
  {
    var k := BiasBitIndex(c);
    if 0 <= k < 8 then BitMask(k) else 0
  }

  /** `1 << k` for a bit index of a byte. */
  function BitMask(k: int): (m: bv8)
    requires 0 <= k < 8
  {
    [1, 2, 4, 8, 16, 32, 64, 128][k]
  }

  /** The table agrees with the shift the C code performs. */
  lemma BitMaskIsShift(k: int)
    requires 0 <= k < 8
    ensures BitMask(k) == (1 as bv8) << k
  {
  }

  /** What the loop body leaves at one index: the sampled byte, whether the bit was cleared, and the final byte. */
  datatype Entry = Entry(sampled: bv8, cleared: bool, value: bv8)

  /** One pass of the inner loop body: the entry written (if any), the draws used, and the fault that ended the cycle (if any). */
  datatype Step = Step(entry: Option<Entry>, used: nat, fault: Option<Fault>)

  /** Storing an `int` into a `char` keeps its low eight bits. */
  function ByteOf(v: int): (b: bv8)
    ensures 0 <= v < 256 ==> b == v as bv8
  {
    (v % 256) as bv8
  }

  /**
   * The byte left in the buffer: `buff[i] &= ~mask` when the bit is to be
   * cleared, else the sample. Clearing turns off the masked bits and keeps
   * every other bit.
   */
  function Written(b: bv8, cleared: bool, mask: bv8): (w: bv8)
    ensures cleared ==> w & mask == 0
    ensures w & !mask == b & !mask
    ensures !cleared ==> w == b
  {
    if cleared then b & !mask else b
  }

  /** The inner loop body at index `i`, with `rand()` about to return `draws`. */
  function StepAt(randMax: nat, c: Config, i: int, draws: seq<int>): (st: Step)
    ensures st.used <= |draws|
  {
    match RandIntOf(randMax, 256, draws)
    case Failed(f, u) => Step(None, u, Some(f))
    case Drawn(v, u) =>
      var b := ByteOf(v);
      var r := ResetOf(randMax, c, i, draws[u..]);
      Step(Some(Entry(b, r.reset, Written(b, r.reset, BiasMask(c)))), u + r.used, r.fault)
  }

  /** The bias check at one index: whether `reset_f` is set, the draws the trial used, and the fault that ended the cycle (if any). */
  datatype Reset = Reset(reset: bool, used: nat, fault: Option<Fault>)

  /**
   * The bias check once the sample is stored at index `i`: a zero BLOCKLEN
   * traps in `% BLOCKLEN`; at a check index `reset_f` is set always when
   * ZERO_CHANCE <= 1 and else when `randint(ZERO_CHANCE) == 0`.
   */
  function ResetOf(randMax: nat, c: Config, i: int, draws: seq<int>): (r: Reset)
    ensures r.used <= |draws|
  {
    if c.blockLen == 0 then Reset(false, 0, Some(DivisionByZero))
    else if !IsCheckPos(c, i) then Reset(false, 0, None)
    else if c.zeroChance <= 1 then Reset(true, 0, None)
    else
      match RandIntOf(randMax, c.zeroChance, draws)
      case Failed(f, u) => Reset(false, u, Some(f))
      case Drawn(t, u) => Reset(t == 0, u, None)
  }

  /** A loop body: what it does at an index, given the draws still to come. */
  type Body = (int, seq<int>) -> Step

  /** A loop body never consumes more draws than there are, and writes nothing only when a fault ends the cycle. */
  ghost predicate Frugal(body: Body) {
    forall i, draws :: body(i, draws).used <= |draws| && (body(i, draws).entry.None? ==> body(i, draws).fault.Some?)
  }

  /** The inner loop body of the generator under configuration `c`. */
  function BodyOf(randMax: nat, c: Config): (body: Body)
    ensures Frugal(body)
    ensures forall i, draws :: body(i, draws) == StepAt(randMax, c, i, draws)
  {
    (i, draws) => StepAt(randMax, c, i, draws)
  }

  /** The first `count` passes of the inner loop; a fault ends the cycle. */
  datatype Cycle = Cycle(entries: seq<Entry>, used: nat, fault: Option<Fault>)

  function Fill(body: Body, count: nat, draws: seq<int>): (cy: Cycle)
    requires Frugal(body)
    ensures cy.used <= |draws|
    ensures |cy.entries| <= count
    ensures cy.fault.None? ==> |cy.entries| == count
  {
    if count == 0 then Cycle([], 0, None)
    else
      var prev := Fill(body, count - 1, draws);
      if prev.fault.Some? then prev
      else
        var st := body(count - 1, draws[prev.used..]);
        var added := if st.entry.Some? then [st.entry.value] else [];
        Cycle(prev.entries + added, prev.used + st.used, st.fault)
  }

  /** The bytes a cycle leaves in the buffer, index by index. */
  function Bytes(cy: Cycle): (b: seq<bv8>)
    ensures |b| == |cy.entries|
    ensures forall i :: 0 <= i < |b| ==> b[i] == cy.entries[i].value
  {
    seq(|cy.entries|, i requires 0 <= i < |cy.entries| => cy.entries[i].value)
  }

  /** A cycle that a fault has ended does not grow at the next index. */
  lemma FillHalted(body: Body, k: nat, draws: seq<int>)
    requires Frugal(body)
    requires Fill(body, k, draws).fault.Some?
    ensures Fill(body, k + 1, draws) == Fill(body, k, draws)
  {
  }

  /** Once a fault has ended the cycle, later indices add nothing. */
  lemma {:induction false} FillStops(body: Body, k: nat, m: nat, draws: seq<int>)
    requires Frugal(body)
    requires k <= m && Fill(body, k, draws).fault.Some?
    ensures Fill(body, m, draws) == Fill(body, k, draws)
    decreases m - k
  {
    if k < m {
      FillStops(body, k, m - 1, draws);
      FillHalted(body, m - 1, draws);
    }
  }

  /**
   * One more index: a running cycle keeps its entries and appends what the
   * loop body writes at index `k`.
   */
  lemma FillGrows(body: Body, k: nat, draws: seq<int>)
    requires Frugal(body)
    requires Fill(body, k, draws).fault.None?
    ensures var pre := Fill(body, k, draws);
      var next := Fill(body, k + 1, draws);
      var st := body(k, draws[pre.used..]);
      && next.entries[..k] == pre.entries
      && (|next.entries| > k <==> st.entry.Some?)
      && (|next.entries| > k ==> st.entry == Some(next.entries[k]))
      && next.used == pre.used + st.used
      && next.fault == st.fault
  {
  }

  /**
   * Entry `i` of a cycle is what the loop body wrote at index `i`, with
   * `rand()` positioned after the draws the first `i` indices used.
   */
  lemma FillEntry(body: Body, count: nat, draws: seq<int>, i: nat)
    requires Frugal(body)
    requires i < |Fill(body, count, draws).entries|
    ensures var pre := Fill(body, i, draws);
      && pre.fault.None?
      && pre.entries == Fill(body, count, draws).entries[..i]
      && body(i, draws[pre.used..]).entry == Some(Fill(body, count, draws).entries[i])
  {
    ReachedIndex(body, count, draws, i);
    FillGrows(body, i, draws);
    FillPrefix(body, i + 1, count, draws);
    PrefixOfPrefix(Fill(body, count, draws).entries, Fill(body, i + 1, draws).entries, i);
  }

  /** A cycle with an entry at `i` ran the first `i` passes without a fault, and the next pass wrote an entry. */
  lemma ReachedIndex(body: Body, count: nat, draws: seq<int>, i: nat)
    requires Frugal(body)
    requires i < |Fill(body, count, draws).entries|
    ensures Fill(body, i, draws).fault.None? && |Fill(body, i + 1, draws).entries| > i
  {
    if Fill(body, i, draws).fault.Some? {
      FillStops(body, i, count, draws);
      assert false;
    }
    if Fill(body, i + 1, draws).fault.Some? {
      FillStops(body, i + 1, count, draws);
    }
  }

  /** The entries of fewer passes are a prefix of the entries of more. */
  lemma {:induction false} FillPrefix(body: Body, k: nat, m: nat, draws: seq<int>)
    requires Frugal(body) && k <= m
    ensures |Fill(body, k, draws).entries| <= |Fill(body, m, draws).entries|
    ensures Fill(body, k, draws).entries == Fill(body, m, draws).entries[..|Fill(body, k, draws).entries|]
    decreases m - k
  {
    if k < m {
      FillPrefix(body, k + 1, m, draws);
      var pre := Fill(body, k, draws);
      if pre.fault.Some? {
        FillHalted(body, k, draws);
      } else {
        FillGrows(body, k, draws);
        var next := Fill(body, k + 1, draws).entries;
        var all := Fill(body, m, draws).entries;
        assert all[..|next|][..k] == all[..k];
      }
    }
  }

  /** Index `i` and the first `i` elements of a prefix are those of the whole. */
  lemma PrefixOfPrefix<T>(all: seq<T>, pre: seq<T>, i: nat)
    requires i < |pre| <= |all| && pre == all[..|pre|]
    ensures pre[..i] == all[..i] && pre[i] == all[i]
  {
  }

  /**
   * Whenever the loop body writes a byte, `randint(256)` returned a value;
   * the byte first stored is that value, `reset_f` decides whether it is
   * cleared, and clearing touches the bias bit only.
   */
  lemma StepParts(randMax: nat, c: Config, i: int, draws: seq<int>)
    requires StepAt(randMax, c, i, draws).entry.Some?
    ensures var s := RandIntOf(randMax, 256, draws);
      var e := StepAt(randMax, c, i, draws).entry.value;
      && s.Drawn?
      && e.sampled == ByteOf(s.value)
      && (IsDrawSeq(randMax, draws) ==> 0 <= s.value < 256 && e.sampled == s.value as bv8)
      && e.cleared == ResetOf(randMax, c, i, draws[s.used..]).reset
      && e.value == Written(e.sampled, e.cleared, BiasMask(c))
  {
  }

  /**
   * `reset_f` is set exactly at a check index whose trial succeeds: always
   * when ZERO_CHANCE <= 1, else when `randint(ZERO_CHANCE) == 0`. A trial is
   * drawn only at a check index with ZERO_CHANCE > 1, and the check faults
   * only then or when BLOCKLEN is zero.
   */
  lemma ResetIff(randMax: nat, c: Config, i: int, draws: seq<int>)
    ensures var r := ResetOf(randMax, c, i, draws);
      && (r.reset <==> c.blockLen != 0 && IsCheckPos(c, i) && (c.zeroChance <= 1 || TrialSucceeds(randMax, c.zeroChance, draws)))
      && (r.used > 0 || r.fault.Some? ==> c.blockLen == 0 || (IsCheckPos(c, i) && c.zeroChance > 1))
      && (r.fault.Some? && c.blockLen != 0 ==> r.fault == Some(RandIntOf(randMax, c.zeroChance, draws).fault))
      && (c.blockLen == 0 <==> r.fault == Some(DivisionByZero) && r.used == 0 && !r.reset)
  {
  }

  /** The bias trial `randint(ZERO_CHANCE) == 0` returns true. */
  predicate TrialSucceeds(randMax: nat, zeroChance: int, draws: seq<int>) {
    var t := RandIntOf(randMax, zeroChance, draws);
    t.Drawn? && t.value == 0
  }

  /**
   * Entry `i` of a cycle, in the generator's terms: `randint(256)` drawn at
   * the position the first `i` indices left `rand()` in gave the sample; the
   * bit is cleared exactly when `reset_f` is set there; only the bias bit
   * of the sample changes.
   */
  lemma CycleEntry(randMax: nat, c: Config, count: nat, draws: seq<int>, i: nat)
    requires IsDrawSeq(randMax, draws)
    requires i < |Fill(BodyOf(randMax, c), count, draws).entries|
    ensures var at := Fill(BodyOf(randMax, c), i, draws).used;
      var e := Fill(BodyOf(randMax, c), count, draws).entries[i];
      var s := RandIntOf(randMax, 256, draws[at..]);
      && s.Drawn? && 0 <= s.value < 256 && e.sampled == s.value as bv8
      && (e.cleared <==> c.blockLen != 0 && IsCheckPos(c, i)
                         && (c.zeroChance <= 1 || TrialSucceeds(randMax, c.zeroChance, draws[at + s.used..])))
      && e.value == Written(e.sampled, e.cleared, BiasMask(c))
  {
    var body := BodyOf(randMax, c);
    FillEntry(body, count, draws, i);
    var at := Fill(body, i, draws).used;
    var s := RandIntOf(randMax, 256, draws[at..]);
    StepParts(randMax, c, i, draws[at..]);
    assert draws[at..][s.used..] == draws[at + s.used..];
    ResetIff(randMax, c, i, draws[at + s.used..]);
  }

  /**
   * With the shipped constants (ZERO_CHANCE 1, BLOCKLEN 16, BIASBIT 0) the
   * generator clears the most significant bit of every sixteenth byte,
   * starting with the first, and leaves every other byte as sampled.
   */
  lemma DefaultsClearTopBit(randMax: nat, count: nat, draws: seq<int>, i: nat)
    requires IsDrawSeq(randMax, draws)
    requires i < |Fill(BodyOf(randMax, Defaults), count, draws).entries|
    ensures var e := Fill(BodyOf(randMax, Defaults), count, draws).entries[i];
      && (e.cleared <==> i % 16 == 0)
      && (i % 16 == 0 ==> e.value == e.sampled & 0x7F)
      && (i % 16 != 0 ==> e.value == e.sampled)
  {
    CycleEntry(randMax, Defaults, count, draws, i);
    var e := Fill(BodyOf(randMax, Defaults), count, draws).entries[i];
    assert e.cleared <==> IsCheckPos(Defaults, i);
    DefaultCheckPos(i);
    DefaultMask();
    if e.cleared {
      ClearTopBit(e.sampled);
    }
  }

  /** With the shipped constants the check indices are the multiples of 16. */
  lemma DefaultCheckPos(i: int)
    ensures IsCheckPos(Defaults, i) <==> i % 16 == 0
  {
    CheckPosIffDivides(Defaults, i);
    assert BitPos(Defaults) == 0;
  }

  /** With the shipped constants the bias bit is the most significant one. */
  lemma DefaultMask()
    ensures BiasMask(Defaults) == 0x80
  {
    assert BiasBitIndex(Defaults) == 7;
  }

  /** Clearing the top bit of a byte keeps its low seven bits. */
  lemma ClearTopBit(b: bv8)
    ensures Written(b, true, 0x80) == b & 0x7F
  {
  }

  /** A cycle ends only with a fault that some pass of the loop body can raise. */
  lemma {:induction false} FillFaultFrom(body: Body, allowed: set<Fault>, count: nat, draws: seq<int>)
    requires Frugal(body)
    requires forall i, d :: body(i, d).fault.Some? ==> body(i, d).fault.value in allowed
    ensures Fill(body, count, draws).fault.Some? ==> Fill(body, count, draws).fault.value in allowed
  {
    if count > 0 {
      FillFaultFrom(body, allowed, count - 1, draws);
    }
  }

  /**
   * When RAND_MAX is at least 255, BLOCKLEN is not zero and ZERO_CHANCE is
   * at most RAND_MAX + 1, neither the division nor the assertion in
   * `randint` can fail: a pass of the loop body ends the cycle only when
   * `rand()` runs out of modelled draws.
   */
  lemma StepNeverAborts(randMax: nat, c: Config, i: int, draws: seq<int>)
    requires 255 <= randMax && c.blockLen != 0 && c.zeroChance <= randMax + 1
    ensures StepAt(randMax, c, i, draws).fault.Some? ==> StepAt(randMax, c, i, draws).fault == Some(Exhausted)
  {
    RandIntFaults(randMax, 256, draws);
    var s := RandIntOf(randMax, 256, draws);
    if s.Drawn? {
      RandIntFaults(randMax, c.zeroChance, draws[s.used..]);
    }
  }

  /** Under the same conditions a whole cycle ends early only when `rand()` runs out of modelled draws. */
  lemma NeverAborts(randMax: nat, c: Config, count: nat, draws: seq<int>)
    requires 255 <= randMax && c.blockLen != 0 && c.zeroChance <= randMax + 1
    ensures var cy := Fill(BodyOf(randMax, c), count, draws);
      cy.fault.Some? ==> cy.fault == Some(Exhausted)
  {
    var body := BodyOf(randMax, c);
    forall i, d ensures body(i, d).fault.Some? ==> body(i, d).fault.value in {Exhausted} {
      StepNeverAborts(randMax, c, i, d);
    }
    FillFaultFrom(body, {Exhausted}, count, draws);
  }

  /**
   * The inner loop body at index `i`: store `randint(256)` in `buff[i]`,
   * decide `reset_f` and, when it is set, clear the bias bit in place. Only
   * `buff[i]` and the generator change.
   */
  method WriteIndex(buff: array<bv8>, rng: Rng, c: Config, i: int) returns (st: Step)
    requires rng.Valid() && 0 <= i < buff.Length
    modifies buff, rng
    ensures rng.Valid()
    ensures st == StepAt(rng.randMax, c, i, old(rng.Remaining()))
    ensures rng.pos == old(rng.pos) + st.used
    ensures st.entry.Some? ==> buff[..] == old(buff[..])[i := st.entry.value.value]
    ensures st.entry.None? ==> buff[..] == old(buff[..])
  {
    ghost var draws := rng.Remaining();
    var s := rng.RandInt(256);
    if s.Failed? {
      return Step(None, s.used, Some(s.fault));
    }
    var b := ByteOf(s.value);
    buff[i] := b;
    assert rng.Remaining() == draws[s.used..];
    var r := ResetFlag(rng, c, i);
    if r.reset {
      buff[i] := buff[i] & !BiasMask(c);
    }
    return Step(Some(Entry(b, r.reset, buff[i])), s.used + r.used, r.fault);
  }

  /** Decide `reset_f` at index `i`, drawing the bias trial when one is due. */
  method ResetFlag(rng: Rng, c: Config, i: int) returns (r: Reset)
    requires rng.Valid()
    modifies rng
    ensures rng.Valid()
    ensures r == ResetOf(rng.randMax, c, i, old(rng.Remaining()))
    ensures rng.pos == old(rng.pos) + r.used
  {
    if c.blockLen == 0 {
      return Reset(false, 0, Some(DivisionByZero));
    }
    if !IsCheckPos(c, i) {
      return Reset(false, 0, None);
    }
    if c.zeroChance <= 1 {
      return Reset(true, 0, None);
    }
    var t := rng.RandInt(c.zeroChance);
    if t.Failed? {
      return Reset(false, t.used, Some(t.fault));
    }
    return Reset(t.value == 0, t.used, None);
  }

  /**
   * One pass of the `for(;;)` body before the buffer is written out: fill
   * `buff` index by index as the inner loop does. The buffer holds the bytes
   * of the cycle specified by `Fill`; if a fault ends it early, the indices
   * not reached keep their old bytes.
   */
  method FillCycle(buff: array<bv8>, rng: Rng, c: Config) returns (fault: Option<Fault>)
    requires rng.Valid()
    modifies buff, rng
    ensures rng.Valid()
    ensures var cy := Fill(BodyOf(rng.randMax, c), buff.Length, old(rng.Remaining()));
      && fault == cy.fault
      && rng.pos == old(rng.pos) + cy.used
      && buff[..] == Bytes(cy) + old(buff[..])[|cy.entries|..]
  {
    ghost var draws := rng.Remaining();
    ghost var body := BodyOf(rng.randMax, c);
    ghost var start := rng.pos;
    ghost var initial := buff[..];
    var i := 0;
    while i < buff.Length
      invariant 0 <= i <= buff.Length
      invariant rng.Valid() && draws == rng.tape[start..]
      invariant Fill(body, i, draws).fault.None?
      invariant rng.pos == start + Fill(body, i, draws).used
      invariant buff[..] == Bytes(Fill(body, i, draws)) + initial[i..]
    {
      ghost var pre := Fill(body, i, draws);
      assert rng.Remaining() == draws[pre.used..];
      FillGrows(body, i, draws);
      var st := WriteIndex(buff, rng, c, i);
      ghost var next := Fill(body, i + 1, draws);
      BytesAfterStep(pre, next, st, initial, i);
      if st.fault.Some? {
        FillStops(body, i + 1, buff.Length, draws);
        return st.fault;
      }
      i := i + 1;
    }
    fault := None;
  }

  /** How one pass of the loop body changes the buffer's contents, as a sequence. */
  lemma BytesAfterStep(pre: Cycle, next: Cycle, st: Step, initial: seq<bv8>, i: nat)
    requires |pre.entries| == i < |initial| && i <= |next.entries| <= i + 1
    requires next.entries[..i] == pre.entries
    requires |next.entries| > i <==> st.entry.Some?
    requires |next.entries| > i ==> st.entry == Some(next.entries[i])
    ensures st.entry.Some? ==>
      (Bytes(pre) + initial[i..])[i := st.entry.value.value] == Bytes(next) + initial[i + 1..]
    ensures st.entry.None? ==> Bytes(pre) + initial[i..] == Bytes(next) + initial[i..]
  {
    if st.entry.Some? {
      assert Bytes(next) == Bytes(pre) + [st.entry.value.value];
      assert initial[i..] == [initial[i]] + initial[i + 1..];
    } else {
      assert next.entries == pre.entries;
    }
  }
}

=== FILE: wrappers.dfy ===
/** Optional values and error-or-value results shared by the modules of this project. */
module Wrappers {

  /** A value that may be absent (C's "no value", Python's None). */
  datatype Option<+T> = None | Some(value: T)

  /** A value, or the error that was raised instead of returning one. */
  datatype Result<+T, +E> = Ok(value: T) | Err(error: E)
}
